=== FILE: README.md ===
# wam-studio audio worklet core, in Dafny

This project models the real-time audio side of wam-studio, a browser
digital audio workstation built on Web Audio Modules (WAM):

- the single-producer/single-consumer **ring buffer** over a shared byte
  buffer (`RingBuffer`), its `AudioWriter` wrapper and the `interleave`
  helper, all from `SampleRecorderProcessor.ts`;
- the **sample recorder processor**: its message handler (audio, playhead,
  arm, start/stop recording, shared buffer, input channel, loop bounds)
  and its `process` method, which either pushes interleaved input frames
  into the ring buffer while recording or plays the loaded audio sample by
  sample, honouring the per-sample `playing` and `loop` parameters;
- the **base audio player processor**: playhead in milliseconds, message
  handler, and the `process` step that advances the playhead by one block
  and hands the window `[previous playhead, playhead)` to `play`;
- the **MIDI player processor**: content as buckets ("instants") of
  scheduled notes; `play` picks the bucket holding the window start and
  emits a note-on/note-off pair of `wam-midi` events per note inside the
  window.

Modules:

| file | module | contents |
|---|---|---|
| outcomes.dfy | `Outcomes` | `Option`, `Result`, the thrown error kinds, `Min` |
| samples.dfy | `Samples` | a sample is a number or `NaN` (what a JavaScript typed array yields for a missing element) |
| ring_buffer.dfy | `RingBuffers` | the ring buffer as an immutable value: storage, write and read cursors; `Contents()` is the queue it represents (the `availableRead` elements from the read cursor on, wrapping at the slot count), and every ring operation is specified by its effect on that queue |
| audio_writer.dfy | `AudioWriters` | the writer wrapper |
| interleave.dfy | `Interleaving` | frame-major interleaving of 128-sample channel blocks |
| sample_recorder.dfy | `SampleRecorder` | recorder state, message decoding, playback step, `process` |
| base_player.dfy | `BasePlayer` | base player state, messages, `process`, runs of blocks |
| midi_player.dfy | `MidiPlayer` | MIDI content, status bytes, event selection, `process` |

Processor state is a datatype and every handler is a function from the old
state to the new one (or a `Result` when the source throws). Audio buffers
are sequences of `Sample`; a channel read past its end yields `NaN`, which
is how the playback bug below shows up. The shared memory of the ring
buffer is its storage sequence plus two cursors; atomic loads and stores
are plain reads and writes of a value.

## Model

| member | source | states |
|---|---|---|
| RingBuffers.StorageForCapacity | public/src/Audio/WAM/SampleRecorderProcessor.ts:197-203 | sizing fails with a `TypeError` exactly when the element type has no (or a zero) byte width |
| RingBuffers.FromStorage | public/src/Audio/WAM/SampleRecorderProcessor.ts:211-227 | a type without byte width throws `TypeError`; a buffer shorter than the 8-byte header is a range error; a built ring is valid, empty, keeps its element type, and header plus slots fill the buffer exactly |
| RingBuffers.CapacityRoundTrip | public/src/Audio/WAM/SampleRecorderProcessor.ts:197-227 | a buffer sized for capacity `c` yields an empty ring with `c + 1` slots whose usable capacity is `c` |
| RingBuffers.Ring.Capacity | public/src/Audio/WAM/SampleRecorderProcessor.ts:447-449 | one slot is always kept free: capacity is below the slot count |
| RingBuffers.Ring.AvailableReadAt | public/src/Audio/WAM/SampleRecorderProcessor.ts:505-507 | the readable count is at most the capacity, advancing the read cursor by it (modulo the slot count) reaches the write cursor, and it is zero exactly when the cursors are equal |
| RingBuffers.Ring.AvailableWriteAt | public/src/Audio/WAM/SampleRecorderProcessor.ts:514-516 | readable plus writable always equals the capacity |
| RingBuffers.EmptyIffNothingQueued | public/src/Audio/WAM/SampleRecorderProcessor.ts:425-430 | `empty()` holds exactly when nothing is queued, and exactly when the whole capacity is writable |
| RingBuffers.FullIffNoSpace | public/src/Audio/WAM/SampleRecorderProcessor.ts:436-441 | `full()` holds exactly when nothing is writable, and exactly when the queue holds `capacity` elements |
| RingBuffers.NeverFullAndEmpty | public/src/Audio/WAM/SampleRecorderProcessor.ts:425-441 | with at least two slots a ring is never both full and empty |
| RingBuffers.Copy | public/src/Audio/WAM/SampleRecorderProcessor.ts:537-541 | the `size` positions from `offsetOutput` receive the input elements from `offsetInput` in order; every other output position is unchanged |
| RingBuffers.WriteAppends | public/src/Audio/WAM/SampleRecorderProcessor.ts:260-268 | writing new elements into the free slots after the write cursor and moving the cursor past them appends exactly those elements to the queue |
| RingBuffers.ReadDrops | public/src/Audio/WAM/SampleRecorderProcessor.ts:411-415 | moving the read cursor by `n` drops exactly the `n` oldest queued elements |
| RingBuffers.PushEffect | public/src/Audio/WAM/SampleRecorderProcessor.ts:256-268 | the two-part copy (to the end of storage, then from slot 0) followed by the cursor store appends the requested elements to the queue |
| RingBuffers.PopCopied | public/src/Audio/WAM/SampleRecorderProcessor.ts:403-409 | the two-part copy out of storage delivers the oldest queued elements in order |
| RingBuffers.WriteRuns | public/src/Audio/WAM/SampleRecorderProcessor.ts:257-261 | the two copy runs of `push` (to the end of storage, then from slot 0) leave a ring whose queue is the old queue followed by the `toWrite` new elements once the write cursor moves past them |
| RingBuffers.ReadRuns | public/src/Audio/WAM/SampleRecorderProcessor.ts:405-409 | the two copy runs of `pop` place the `toRead` oldest queued elements from `offset` and keep every other destination position |
| RingBuffers.Push | public/src/Audio/WAM/SampleRecorderProcessor.ts:245-271 | a full ring accepts nothing and is unchanged; otherwise it accepts `min(availableWrite, length or elements.length)` elements, appends exactly `elements[offset..offset+written]` to the queue, advances only the write cursor (modulo the slot count) |
| RingBuffers.Pop | public/src/Audio/WAM/SampleRecorderProcessor.ts:394-418 | an empty ring delivers nothing; otherwise `min(availableRead, length)` elements are delivered, they are the oldest queued ones, placed from `offset`, other destination positions untouched, and the queue loses exactly them |
| RingBuffers.QueueStepIsFifo | public/src/Audio/WAM/SampleRecorderProcessor.ts:245-271 | in the bounded reference queue, one push or pop keeps queue-before + accepted == delivered + queue-after, and never exceeds the capacity |
| RingBuffers.QueueRunIsFifo | public/src/Audio/WAM/SampleRecorderProcessor.ts:245-418 | over any sequence of pushes and pops the reference queue is FIFO: initial queue plus everything accepted equals everything delivered plus the final queue, within the capacity |
| RingBuffers.Apply | public/src/Audio/WAM/SampleRecorderProcessor.ts:245-271 | one ring `push` or `pop` behaves exactly as the reference queue step: same queue afterwards, a push accepts the prefix of the items that fits the free space, a pop delivers the oldest `min(queued, destination length)` elements |
| RingBuffers.Replay | public/src/Audio/WAM/SampleRecorderProcessor.ts:245-418 | any sequence of ring pushes and pops matches the reference queue run (final queue, everything accepted, everything delivered), so the ring is FIFO: nothing is lost, duplicated or reordered |
| RingBuffers.PushThenDrain | public/src/Audio/WAM/SampleRecorderProcessor.ts:245-418 | pushing into an empty ring then draining it returns exactly the first `min(capacity, n)` pushed elements; an oversize push accepts fewer than offered |
| AudioWriters.NewAudioWriter | public/src/Audio/WAM/SampleRecorderProcessor.ts:148-153 | a writer is built exactly when the ring's type name is `Float32Array`, otherwise `TypeError` |
| AudioWriters.AvailableWrite | public/src/Audio/WAM/SampleRecorderProcessor.ts:175-177 | free space plus queued length equals the capacity |
| AudioWriters.Enqueue | public/src/Audio/WAM/SampleRecorderProcessor.ts:167-169 | the buffer is accepted partially exactly when it is longer than the free space, and the accepted prefix is appended to the queue; only the write cursor moves, forward by the accepted count (wrapping), and the read cursor, element type and slot count are kept |
| Interleaving.FramesIndexAll | public/src/Audio/WAM/SampleRecorderProcessor.ts:562-568 | in the frame-major layout, sample `i` of channel `c` sits at position `i * channels + c` |
| Interleaving.Interleave | public/src/Audio/WAM/SampleRecorderProcessor.ts:555-569 | fails with `RangeError` exactly when `channels * 128` differs from the output length; otherwise output position `i * channels + c` holds sample `i` of channel `c` |
| SampleRecorder.Initial | public/src/Audio/WAM/SampleRecorderProcessor.ts:15-31 | no audio, writer or shared buffer, not recording, no input channel, playhead and loop bounds 0, a 256-sample scratch buffer of zeros |
| SampleRecorder.Rank | public/src/Audio/WAM/SampleRecorderProcessor.ts:52-64 | every field has a position in the chain order, and the chain order lists it there |
| SampleRecorder.CommandAtExact | public/src/Audio/WAM/SampleRecorderProcessor.ts:52-64 | a chain position yields at most one command: the command of the field at that position exactly when the message holds it |
| SampleRecorder.CommandsFromSound | public/src/Audio/WAM/SampleRecorderProcessor.ts:52-64 | every command the message yields comes from a present field and carries that field's value |
| SampleRecorder.CommandsFromOrdered | public/src/Audio/WAM/SampleRecorderProcessor.ts:52-64 | the message's commands follow the chain order strictly, so no field yields two |
| SampleRecorder.CommandsFromComplete | public/src/Audio/WAM/SampleRecorderProcessor.ts:52-64 | every present field's command is among the message's commands |
| SampleRecorder.Decode | public/src/Audio/WAM/SampleRecorderProcessor.ts:52-64 | a message selects the command of its first present field in chain order, carrying that field's value; no field present selects nothing |
| SampleRecorder.Round | public/src/Audio/WAM/SampleRecorderProcessor.ts:53 | the stored playhead is the nearest integer to the requested one, halves rounding up |
| SampleRecorder.ArmWriter | public/src/Audio/WAM/SampleRecorderProcessor.ts:55 | arming without a shared buffer throws `TypeError`; with one, arming succeeds exactly when a `Float32Array` ring can be built over it, and the writer's ring is that ring: valid, empty, `Float32Array`, its 4-byte slots filling the buffer after the header |
| SampleRecorder.Apply | public/src/Audio/WAM/SampleRecorderProcessor.ts:52-64 | only arming can fail, and exactly when the writer cannot be built; on success the field the command sets holds the carried value (playhead rounded, an arm leaves an empty valid `Float32Array` writer, a stereo input clears the channel, a mono one records it) and every other field is unchanged |
| SampleRecorder.OnMessage | public/src/Audio/WAM/SampleRecorderProcessor.ts:50-65 | a message with no known field changes nothing; only a message with `arm` can fail; on success the first present field's value holds and every item that field does not write is unchanged |
| SampleRecorder.DecodeOnly | public/src/Audio/WAM/SampleRecorderProcessor.ts:52-64 | a message holding one field selects that field's command |
| SampleRecorder.LaterFieldsIgnored | public/src/Audio/WAM/SampleRecorderProcessor.ts:52-64 | the handler is an else-if chain: a message acts exactly as its first present field alone |
| SampleRecorder.LoopChangeDropsLoopEnd | public/src/Models/Track/MIDITrack.ts:87-91 | the loop change the track posts (loop start and loop end in one message) sets the loop start and leaves the loop end unchanged |
| SampleRecorder.Touched | public/src/Audio/WAM/SampleRecorderProcessor.ts:52-64 | the items a run of commands writes are exactly the items of its commands |
| SampleRecorder.ApplyAll | public/src/Audio/WAM/SampleRecorderProcessor.ts:52-64 | applying commands in order cannot fail without an arm; on success every command whose item no later command writes holds its value, and every item no command writes is unchanged |
| SampleRecorder.OnMessageEveryField | public/src/Audio/WAM/SampleRecorderProcessor.ts:52-64 | corrected handler acting on every present field in chain order: it cannot fail without an arm; on success every present field whose item no later field writes holds its value, and every other item is unchanged |
| SampleRecorder.LastWriterIndex | public/src/Audio/WAM/SampleRecorderProcessor.ts:52-64 | a present field that no later present field overrides has its command among the message's commands, as the last writer of its item |
| SampleRecorder.EveryFieldActs | public/src/Audio/WAM/SampleRecorderProcessor.ts:52-64 | with every field acted on, each present field's value is in the result unless a later present field writes the same item (a removal after an audio buffer, a stop after a start) |
| SampleRecorder.AbsentFieldsKept | public/src/Audio/WAM/SampleRecorderProcessor.ts:52-64 | with every field acted on, an item that no present field writes keeps its value |
| SampleRecorder.LoopChangeSetsBothBounds | public/src/Models/Track/MIDITrack.ts:87-91 | with every field acted on, the track's loop change sets both loop bounds and nothing else |
| SampleRecorder.ParamAtRates | public/src/Audio/WAM/SampleRecorderProcessor.ts:94-99 | an audio-rate `playing`/`loop` array is read at the sample itself (true exactly when non-zero), a one-value control-rate array holds for every sample, and a missing one reads false |
| SampleRecorder.StepAsWritten | public/src/Audio/WAM/SampleRecorderProcessor.ts:93-123 | the per-sample step as written: a non-playing sample changes nothing, a playing one restarts at `loopStart` when looping at `loopEnd` and advances the playhead by one |
| SampleRecorder.AsWrittenReadsPastEnd | public/src/Audio/WAM/SampleRecorderProcessor.ts:115-118 | with a one-sample clip and the playhead at 1 the as-written guard copies `NaN` into the output |
| SampleRecorder.CopyChannels | public/src/Audio/WAM/SampleRecorderProcessor.ts:116-119 | sample `i` of each channel below `min(audio channels, output channels)` receives the audio at the position; every other sample and channel keeps its value |
| SampleRecorder.Step | public/src/Audio/WAM/SampleRecorderProcessor.ts:93-123 | corrected step: same playhead movement; only sample `i` of the output can change, there each channel below `min(audio channels, output channels)` gets the audio sample at the playhead exactly when it lies inside the clip, and the other channels keep theirs |
| SampleRecorder.StepKeepsNumbers | public/src/Audio/WAM/SampleRecorderProcessor.ts:113-120 | with the corrected guard, numeric audio and output stay numeric: playback never writes `NaN` |
| SampleRecorder.RenderAhead | public/src/Audio/WAM/SampleRecorderProcessor.ts:93-123 | the first `n` steps of the playback loop leave every sample from `n` on untouched |
| SampleRecorder.RenderSample | public/src/Audio/WAM/SampleRecorderProcessor.ts:93-123 | with the corrected guard, after the playback loop sample `k` of channel `c` holds the audio at the position sample `k` reads from (the playhead after `k` steps, moved to the loop start when looping on the loop end) when it is playing, the channel has audio and the position is inside the clip, and its original value otherwise |
| SampleRecorder.PlayBlock | public/src/Audio/WAM/SampleRecorderProcessor.ts:89-124 | with the corrected guard: the block's output and final playhead are exactly the per-sample fold of `Step` over the block; only the playhead changes; samples whose `playing` flag is off are untouched; without looping the playhead advances by the number of playing samples; a block with nothing playing changes nothing; numeric audio keeps the output numeric |
| SampleRecorder.Process | public/src/Audio/WAM/SampleRecorderProcessor.ts:74-127 | recording: an empty input changes nothing, a channel count that does not fill the 256-sample scratch buffer throws `RangeError`, otherwise `min(availableWrite, 256)` interleaved samples are appended to the queue of the same ring (element type, slot count and read cursor kept), the playhead advances by 128 and an overrun is flagged exactly when that count is not 256; not recording, with the corrected guard: the result is the per-sample fold of `Step` over the block, with no overrun |
| BasePlayer.Initial | public/src/Audio/Players/BaseAudioPlayerProcessor.ts:39-50 | playhead and previous playhead 0, loop start -1, loop end 0, alive |
| BasePlayer.OnMessage | public/src/Audio/Players/BaseAudioPlayerProcessor.ts:58-66 | each present field is applied independently; a new playhead also sets the previous playhead one millisecond earlier |
| BasePlayer.OnMessageIdempotent | public/src/Audio/Players/BaseAudioPlayerProcessor.ts:58-66 | delivering the same message twice has the effect of delivering it once |
| BasePlayer.FieldsIndependent | public/src/Audio/Players/BaseAudioPlayerProcessor.ts:58-66 | fields sent in separate messages, in either order, give the same state as one combined message |
| BasePlayer.MsPerSample | public/src/Audio/Players/BaseAudioPlayerProcessor.ts:73 | the millisecond rate times the sample rate is 1000 |
| BasePlayer.Process | public/src/Audio/Players/BaseAudioPlayerProcessor.ts:68-83 | a gated block (`isPlaying < 0.5`) changes nothing, posts nothing and keeps the node alive; a playing block moves the playhead by the block's duration, hands `play` the window from the old to the new playhead, posts the new playhead and returns `shouldLive` |
| BasePlayer.WindowSpansBlock | public/src/Audio/Players/BaseAudioPlayerProcessor.ts:72-77 | the window of a playing block is exactly `blockLength` sample periods long |
| BasePlayer.ConsecutiveWindowsAdjoin | public/src/Audio/Players/BaseAudioPlayerProcessor.ts:72-77 | two playing blocks in a row give adjacent windows: no time is skipped or played twice |
| BasePlayer.RunAdvancesPerPlayingBlock | public/src/Audio/Players/BaseAudioPlayerProcessor.ts:68-83 | over a run of blocks the playhead advances by one block duration per playing block and not at all for gated ones |
| MidiPlayer.Initial | public/src/Audio/Players/MIDI/MIDIPlayerProcessor.ts:13-14 | no content and 1000 ms buckets |
| MidiPlayer.OnMessage | public/src/Audio/Players/MIDI/MIDIPlayerProcessor.ts:20-24 | the base fields are handled as by the base player, then content and bucket length each replace the old value only when present |
| MidiPlayer.ContentFieldsIndependent | public/src/Audio/Players/MIDI/MIDIPlayerProcessor.ts:22-23 | content and bucket length in separate messages, either order, equal one combined message |
| MidiPlayer.Status | public/src/Audio/Players/MIDI/MIDIPlayerProcessor.ts:47-48 | the status byte's high nibble is 9 for note-on and 8 for note-off, its low nibble is the channel |
| MidiPlayer.NoteOn | public/src/Audio/Players/MIDI/MIDIPlayerProcessor.ts:47 | the note-on event is at time 0, has three bytes, its status decodes to a note-on on the note's channel, then note and velocity |
| MidiPlayer.NoteOff | public/src/Audio/Players/MIDI/MIDIPlayerProcessor.ts:48 | the note-off event is at the note's duration minus 0.001, has three bytes, its status decodes to a note-off on the note's channel, then note and velocity |
| MidiPlayer.StatusRoundTrip | public/src/Audio/Players/MIDI/MIDIPlayerProcessor.ts:47-48 | kind and channel can be read back from every status byte the player emits |
| MidiPlayer.Selected | public/src/Audio/Players/MIDI/MIDIPlayerProcessor.ts:38-39 | every selected note lies in the half-open local window, and each note in the window is selected as many times as the bucket holds it, others never |
| MidiPlayer.Pairs | public/src/Audio/Players/MIDI/MIDIPlayerProcessor.ts:46-49 | note `k` yields a note-on at position `2k` and a note-off at `2k + 1` |
| MidiPlayer.LocalWindowInBucket | public/src/Audio/Players/MIDI/MIDIPlayerProcessor.ts:30-36 | the window start falls inside the chosen bucket (local start in `[0, duration)`) and the local window has the global window's length |
| MidiPlayer.Play | public/src/Audio/Players/MIDI/MIDIPlayerProcessor.ts:26-52 | no content, or a bucket index past the last bucket, emits nothing; a negative bucket index throws |
| MidiPlayer.PlayEmitsEachMatchOnce | public/src/Audio/Players/MIDI/MIDIPlayerProcessor.ts:26-52 | `play` emits two events per selected note; each pair belongs to a bucket note inside the window, and every note inside the window is emitted as often as it is scheduled |
| MidiPlayer.OnlyOneBucketScanned | public/src/Audio/Players/MIDI/MIDIPlayerProcessor.ts:30-32 | a window crossing a bucket boundary does not emit a note at the start of the next bucket |
| MidiPlayer.Process | public/src/Audio/Players/MIDI/MIDIPlayerProcessor.ts:26-52 | a gated block emits nothing; a playing block fails exactly when `play` on the base player's window fails and otherwise carries the base player's new state and `play`'s events |

## Left out

- `writeCallback` and `writeCallbackWithOffset` (SampleRecorderProcessor.ts:293-378): they hand raw views of the storage to a caller-supplied callback, which is code outside this model.
- `type()`, `available_read`, `available_write` and `_storage_capacity` are one-line aliases; they are folded into `Ring.Type`, `AvailableRead`, `AvailableWrite` and the storage length.
- Atomics and concurrency: loads and stores are plain value reads and writes; the interleaving of a producer and a consumer thread is not modelled, only sequential traces (`Replay`).
- Cursor width: the write and read cursors are `Uint32Array` cells; the model uses unbounded naturals kept below the slot count, which they always are.
- RingBuffers.FromStorage: the source divides the payload by the element width without checking it, giving a fractional capacity for a byte length that is not a multiple, or a zero-slot ring for exactly 8 bytes; the model rejects those lengths with `MalformedSize`.
- RingBuffers.Push: requires the copied range to lie inside `elements`; in the source reading past its end yields `undefined`, which a typed array stores as `NaN`.
- RingBuffers.Pop: requires the destination range to lie inside `elements`; in the source nothing is read from `elements`, and writes past the end of the typed array are silently dropped.
- RingBuffers.FromStorage: the shared buffer is modelled by its byte length only, so a built ring always starts with zeroed storage and both cursors at 0; the source adopts whatever cursors and samples the shared memory already holds.
- SampleRecorder.ArmWriter: yields an empty ring on every arm; in the source the track allocates its shared buffer once (MIDITrack.ts:66-67), so re-arming wraps the same memory and keeps any samples still queued from an earlier recording.
- SampleRecorder.PlayBlock: is stated for the corrected copy guard (`0 <= playhead < audioLength`) rather than the source's `playhead <= audioLength`; the as-written step is `StepAsWritten` (see Findings).
- SampleRecorder.Process: its playback result is stated for the corrected copy guard, as for `PlayBlock`.
- SampleRecorder.Process: requires audio to be loaded when a sample is playing and a writer to exist while recording, because the source dereferences `this.audio[0]` and `this._audioWriter` without a check and would throw.
- `super.process`, `_processEvent` and the `await super._onMessage(e)` that runs before the recorder's own message chain (SampleRecorderProcessor.ts:51) belong to the WAM base class, and `console.log` on overrun (the overrun is returned as a flag) and `registerProcessor` are host-environment calls; none of them is modelled.
- The `inputChannel` passed to `interleave` is ignored by the source (the channel-selection lines are commented out), so the model ignores it too.
- BasePlayer.Process, BasePlayer.RunAdvancesPerPlayingBlock, BasePlayer.WindowSpansBlock, BasePlayer.ConsecutiveWindowsAdjoin, MidiPlayer.LocalWindowInBucket, MidiPlayer.Play, MidiPlayer.PlayEmitsEachMatchOnce: positions, `msRate` and `playhead += length * msRate` (BaseAudioPlayerProcessor.ts:73-74), and the bucket index `Math.floor(from / instant_duration)` with its local offsets (MIDIPlayerProcessor.ts:30-36), are exact `real` arithmetic here where the source uses IEEE doubles. The exact sum of block durations and the bound `0 <= localFrom < instant_duration` hold only for exact arithmetic: with doubles `from / d` can round up to `k` while `from < k * d`, making `localFrom` slightly negative, so that a note at offset 0 of bucket `k` is emitted from a window the exact model assigns to bucket `k - 1`.
- MidiPlayer.Process: the sine tone added to the output at MIDIPlayerProcessor.ts:43 is floating-point synthesis and is not modelled; only the emitted events are.
- MidiPlayer.Play: requires a positive bucket length; a zero or negative `instant_duration` leads to floating-point `Infinity`/`NaN` bucket indices, which are not modelled.
- The base player's `play` is abstract; its loop bounds are stored but never read by `process`, so no looping is modelled for it.
- The recorder's loop bounds are sample indices; the only conversion from milliseconds is in `MIDITrack._onLoopChange` (MIDITrack.ts:81-91, `Math.floor` of milliseconds times the sample rate over 1000), which is not part of this model; the playhead is taken as sent.
- MidiPlayer.Status: channels are restricted to 0..15; the source ORs any channel value into the status byte, so a larger value would corrupt the high nibble.
- `_onMessage` of the recorder is an else-if chain: only the first present field acts (`LaterFieldsIgnored`); the model follows the code and records the effect on loop changes under Findings.

## Findings

| source | as written | input that shows it | evidently intended | confidence | as-written member | corrected member |
|---|---|---|---|---|---|---|
| public/src/Audio/WAM/SampleRecorderProcessor.ts:115 | the copy guard is `playhead <= audioLength`, so a playhead equal to the clip length reads one sample past the end | a one-channel clip of one sample, playhead 1, `playing` on: the output sample becomes `NaN` (`undefined` stored into a `Float32Array`) | copy only when `0 <= playhead < audioLength`, so playback never writes `NaN` | high, not executed | SampleRecorder.StepAsWritten, SampleRecorder.AsWrittenReadsPastEnd | SampleRecorder.Step, SampleRecorder.StepKeepsNumbers |
| public/src/Models/Track/MIDITrack.ts:87-91 | the track posts `loopStart` and `loopEnd` in one message, but the recorder's else-if chain (SampleRecorderProcessor.ts:63-64) stops at `loopStart` | any loop change: the message `{loop, loopStart: s, loopEnd: e}` sets the loop start to `s` and leaves the loop end as it was | both bounds set by one loop change | medium, not executed | SampleRecorder.OnMessage, SampleRecorder.LoopChangeDropsLoopEnd | SampleRecorder.OnMessageEveryField, SampleRecorder.LoopChangeSetsBothBounds |

=== FILE: audio_writer.dfy ===
/** `AudioWriter`: the producer-only view of a ring buffer of 32-bit float
    samples, used by the recorder to hand captured audio to a worker. */
module AudioWriters {
  import opened Outcomes
  import opened Samples
  import RingBuffers

  /** The element kind of a `Float32Array`. */
  const Float32: RingBuffers.ElementKind := RingBuffers.ElementKind("Float32Array", Some(4))

  datatype AudioWriter = AudioWriter(ring: RingBuffers.Ring<Sample>)

  /** The constructor: refuses, with a `TypeError`, a ring buffer whose
      element type is not `Float32Array`. */
  function NewAudioWriter(ring: RingBuffers.Ring<Sample>): (w: Result<AudioWriter>)
    ensures w.Success? <==> ring.Type() == "Float32Array"
    ensures w.Success? ==> w.value.ring == ring
    ensures w.Failure? ==> w.error == TypeError
  {
    if ring.Type() != "Float32Array" then Failure(TypeError) else Success(AudioWriter(ring))
  }

  /** Free space: the number of samples a following `enqueue` is sure to
      accept. */
  function AvailableWrite(w: AudioWriter): (n: nat)
    requires w.ring.Valid()
    ensures n <= w.ring.Capacity()
    ensures n + |w.ring.Contents()| == w.ring.Capacity()
  {
    w.ring.AvailableWrite()
  }

  /** `enqueue`: pushes a whole frame of interleaved samples. The count is
      short exactly when the frame is longer than the free space, which the
      caller reports as an overrun; the accepted samples are queued behind
      the earlier ones. */
  method Enqueue(w: AudioWriter, buf: seq<Sample>) returns (w': AudioWriter, written: nat)
    requires w.ring.Valid()
    ensures w'.ring.Valid() && |w'.ring.storage| == |w.ring.storage| && w'.ring.kind == w.ring.kind
    ensures written <= |buf|
    ensures written < |buf| <==> |buf| > AvailableWrite(w)
    ensures written == Min(AvailableWrite(w), |buf|)
    ensures w'.ring.Contents() == w.ring.Contents() + buf[..written]
    ensures w'.ring.rd == w.ring.rd
    ensures w'.ring.wr == RingBuffers.Wrap(|w.ring.storage|, w.ring.wr + written)
  {
    var ring, n := RingBuffers.Push(w.ring, buf, None, 0);
    w' := AudioWriter(ring);
    written := n;
  }
}

=== FILE: base_player.dfy ===
/** `BaseAudioPlayerProcessor`: the per-track player state shared by every
    audio-producing processor. Positions are milliseconds, kept exact as
    `real`. Each render quantum the playhead moves by one block's worth of
    time and the concrete player (`play`) is handed that time window. */
module BasePlayer {
  import opened Outcomes

  datatype Player = Player(
    playhead: real,           // milliseconds
    previousPlayhead: real,   // milliseconds
    loopStart: real,          // milliseconds, -1 when looping is off
    loopEnd: real,            // milliseconds
    shouldLive: bool)

  /** A freshly constructed processor. */
  function Initial(): (p: Player)
    ensures p.playhead == 0.0 && p.previousPlayhead == 0.0
    ensures p.loopStart == -1.0 && p.loopEnd == 0.0
    ensures p.shouldLive
  {
    Player(0.0, 0.0, -1.0, 0.0, true)
  }

  /** The fields of a control message this class reads; `None` when absent. */
  datatype Update = Update(
    playhead: Option<real>,
    loopStart: Option<real>,
    loopEnd: Option<real>,
    shouldLive: Option<bool>)

  const NoUpdate: Update := Update(None, None, None, None)

  /** `onmessage`: every field present is applied, independently of the
      others. A new playhead also sets the previous playhead one millisecond
      before it. Absent fields keep their values. */
  function OnMessage(p: Player, m: Update): (r: Player)
    ensures m.playhead.Some? ==> r.playhead == m.playhead.value && r.previousPlayhead == m.playhead.value - 1.0
    ensures m.playhead.None? ==> r.playhead == p.playhead && r.previousPlayhead == p.previousPlayhead
    ensures r.loopStart == (if m.loopStart.Some? then m.loopStart.value else p.loopStart)
    ensures r.loopEnd == (if m.loopEnd.Some? then m.loopEnd.value else p.loopEnd)
    ensures r.shouldLive == (if m.shouldLive.Some? then m.shouldLive.value else p.shouldLive)
  {
    var p1 := if m.playhead.Some? then p.(playhead := m.playhead.value, previousPlayhead := m.playhead.value - 1.0) else p;
    var p2 := if m.loopStart.Some? then p1.(loopStart := m.loopStart.value) else p1;
    var p3 := if m.loopEnd.Some? then p2.(loopEnd := m.loopEnd.value) else p2;
    if m.shouldLive.Some? then p3.(shouldLive := m.shouldLive.value) else p3
  }

  /** Delivering the same message twice is the same as delivering it once. */
  lemma OnMessageIdempotent(p: Player, m: Update)
    ensures OnMessage(OnMessage(p, m), m) == OnMessage(p, m)
  {
  }

  /** A message acts as its fields sent one by one, in either order: no
      field depends on another. */
  lemma {:induction false} FieldsIndependent(p: Player, m: Update)
    ensures OnMessage(p, m) ==
            OnMessage(OnMessage(OnMessage(OnMessage(p,
              NoUpdate.(playhead := m.playhead)),
              NoUpdate.(loopStart := m.loopStart)),
              NoUpdate.(loopEnd := m.loopEnd)),
              NoUpdate.(shouldLive := m.shouldLive))
    ensures OnMessage(p, m) ==
            OnMessage(OnMessage(OnMessage(OnMessage(p,
              NoUpdate.(shouldLive := m.shouldLive)),
              NoUpdate.(loopEnd := m.loopEnd)),
              NoUpdate.(loopStart := m.loopStart)),
              NoUpdate.(playhead := m.playhead))
  {
  }

  /** Milliseconds per sample. */
  function MsPerSample(sampleRate: real): (ms: real)
    requires sampleRate > 0.0
    ensures ms > 0.0
    ensures ms * sampleRate == 1000.0
  {
    1000.0 / sampleRate
  }

  /** The time window `[from, to)` handed to `play`, with the sample period. */
  datatype Window = Window(from: real, to: real, msRate: real)

  /** The outcome of one quantum: the new state, the liveness value returned
      to the host, the window given to `play` (`None` when it is not called)
      and the playhead posted back to the node (`None` when nothing is
      posted). */
  datatype Block = Block(player: Player, alive: bool, window: Option<Window>, posted: Option<real>)

  /** `process` for a block of `blockLength` samples. Below the 0.5 threshold
      of `isPlaying` nothing happens and the processor stays alive; otherwise
      the playhead moves by the block's duration, `play` receives the window
      from the old to the new playhead, the new playhead is posted and the
      `shouldLive` flag is returned. */
  function Process(p: Player, isPlaying: real, blockLength: nat, sampleRate: real): (b: Block)
    requires sampleRate > 0.0
    ensures isPlaying < 0.5 ==> b == Block(p, true, None, None)
    ensures isPlaying >= 0.5 ==>
              && b.player.previousPlayhead == p.playhead
              && b.player.playhead * sampleRate == p.playhead * sampleRate + blockLength as real * 1000.0
              && b.player.loopStart == p.loopStart && b.player.loopEnd == p.loopEnd
              && b.player.shouldLive == p.shouldLive
              && b.window == Some(Window(p.playhead, b.player.playhead, MsPerSample(sampleRate)))
              && b.posted == Some(b.player.playhead)
              && b.alive == p.shouldLive
  {
    if isPlaying < 0.5 then Block(p, true, None, None)
    else
      var msRate := MsPerSample(sampleRate);
      var moved := p.(previousPlayhead := p.playhead, playhead := p.playhead + blockLength as real * msRate);
      Block(moved, moved.shouldLive, Some(Window(moved.previousPlayhead, moved.playhead, msRate)), Some(moved.playhead))
  }

  /** The window of a playing block spans exactly `blockLength` sample
      periods. */
  lemma WindowSpansBlock(p: Player, isPlaying: real, blockLength: nat, sampleRate: real)
    requires sampleRate > 0.0 && isPlaying >= 0.5
    ensures var w := Process(p, isPlaying, blockLength, sampleRate).window.value;
            w.to - w.from == blockLength as real * w.msRate
  {
  }

  /** Two playing blocks in a row hand `play` adjacent windows: the second
      starts where the first ended, so no time is skipped or played twice. */
  lemma ConsecutiveWindowsAdjoin(p: Player, a: real, b: real, blockLength: nat, sampleRate: real)
    requires sampleRate > 0.0 && a >= 0.5 && b >= 0.5
    ensures var first := Process(p, a, blockLength, sampleRate);
            var second := Process(first.player, b, blockLength, sampleRate);
            second.window.value.from == first.window.value.to
  {
  }

  /** Runs one block per `isPlaying` value. */
  function Run(p: Player, isPlaying: seq<real>, blockLength: nat, sampleRate: real): Player
    requires sampleRate > 0.0
    decreases |isPlaying|
  {
    if |isPlaying| == 0 then p
    else Run(Process(p, isPlaying[0], blockLength, sampleRate).player, isPlaying[1..], blockLength, sampleRate)
  }

  /** Number of blocks whose `isPlaying` value reaches the threshold. */
  function PlayingBlocks(isPlaying: seq<real>): (n: nat)
    ensures n <= |isPlaying|
  {
    if |isPlaying| == 0 then 0
    else (if isPlaying[0] >= 0.5 then 1 else 0) + PlayingBlocks(isPlaying[1..])
  }

  /** The duration of one block in milliseconds. */
  function BlockDuration(blockLength: nat, sampleRate: real): (d: real)
    requires sampleRate > 0.0
    ensures d >= 0.0
    ensures d * sampleRate == blockLength as real * 1000.0
  {
    blockLength as real * MsPerSample(sampleRate)
  }

  /** One block moves the playhead by a block duration when playing and
      leaves everything but the playheads as it was. */
  lemma BlockAdvance(p: Player, isPlaying: real, blockLength: nat, sampleRate: real)
    requires sampleRate > 0.0
    ensures var q := Process(p, isPlaying, blockLength, sampleRate).player;
            && q.playhead == p.playhead + (if isPlaying >= 0.5 then BlockDuration(blockLength, sampleRate) else 0.0)
            && q.loopStart == p.loopStart && q.loopEnd == p.loopEnd && q.shouldLive == p.shouldLive
  {
  }

  /** Time covered by `n` blocks of duration `d`. */
  function Elapsed(n: nat, d: real): real {
    n as real * d
  }

  lemma ElapsedStep(n: nat, d: real)
    ensures Elapsed(n + 1, d) == d + Elapsed(n, d)
  {
    assert (n + 1) as real * d == (n as real + 1.0) * d == n as real * d + d;
  }

  /** Over any run, the playhead advances by one block's duration per
      playing block and not at all for gated ones; nothing else changes. */
  lemma {:induction false} RunAdvancesPerPlayingBlock(p: Player, isPlaying: seq<real>, blockLength: nat, sampleRate: real)
    requires sampleRate > 0.0
    ensures Run(p, isPlaying, blockLength, sampleRate).playhead ==
            p.playhead + Elapsed(PlayingBlocks(isPlaying), BlockDuration(blockLength, sampleRate))
    ensures Run(p, isPlaying, blockLength, sampleRate).loopStart == p.loopStart
    ensures Run(p, isPlaying, blockLength, sampleRate).loopEnd == p.loopEnd
    ensures Run(p, isPlaying, blockLength, sampleRate).shouldLive == p.shouldLive
    decreases |isPlaying|
  {
    if |isPlaying| > 0 {
      var q := Process(p, isPlaying[0], blockLength, sampleRate).player;
      var d := BlockDuration(blockLength, sampleRate);
      var n := PlayingBlocks(isPlaying[1..]);
      assert Run(p, isPlaying, blockLength, sampleRate) == Run(q, isPlaying[1..], blockLength, sampleRate);
      BlockAdvance(p, isPlaying[0], blockLength, sampleRate);
      RunAdvancesPerPlayingBlock(q, isPlaying[1..], blockLength, sampleRate);
      if isPlaying[0] >= 0.5 {
        assert PlayingBlocks(isPlaying) == n + 1;
        ElapsedStep(n, d);
      } else {
        assert PlayingBlocks(isPlaying) == n;
      }
    }
  }
}

=== FILE: interleave.dfy ===
/** Planar to interleaved conversion of one render quantum. */
module Interleaving {
  import opened Outcomes

  /** Samples per channel in one render quantum. */
  const Quantum: nat := 128

  /** Frame `i` of a planar block: sample `i` of every channel, in channel
      order. */
  function Column<T>(input: seq<seq<T>>, i: nat): (col: seq<T>)
    requires forall c :: 0 <= c < |input| ==> i < |input[c]|
    ensures |col| == |input|
    ensures forall c :: 0 <= c < |input| ==> col[c] == input[c][i]
  {
    seq(|input|, c requires 0 <= c < |input| => input[c][i])
  }

  /** The first `k` frames of `input`, interleaved channel-minor. */
  function Frames<T>(input: seq<seq<T>>, k: nat): (out: seq<T>)
    requires forall c :: 0 <= c < |input| ==> k <= |input[c]|
    ensures |out| == k * |input|
  {
    if k == 0 then [] else Frames(input, k - 1) + Column(input, k - 1)
  }

  /** Position of sample `i` of channel `c` among `n` interleaved channels. */
  function Pos(i: nat, c: nat, n: nat): nat {
    i * n + c
  }

  lemma RowBound(i: nat, k: nat, n: nat, c: nat)
    requires i < k && c < n
    ensures i * n + c < k * n
  {
    assert (i + 1) * n <= k * n;
  }

  /** Sample `i` of channel `c` sits at index `i * n + c` of the interleaved
      frames, `n` being the channel count. */
  lemma {:induction false} FramesIndex<T>(input: seq<seq<T>>, k: nat, i: nat, c: nat)
    requires forall ch :: 0 <= ch < |input| ==> k <= |input[ch]|
    requires i < k && c < |input|
    ensures Pos(i, c, |input|) < |Frames(input, k)|
    ensures Frames(input, k)[Pos(i, c, |input|)] == input[c][i]
  {
    RowBound(i, k, |input|, c);
    if i < k - 1 {
      FramesIndex(input, k - 1, i, c);
    } else {
      assert i * |input| == |Frames(input, k - 1)|;
    }
  }

  /** `out` holds sample `i` of channel `c` at `i * n + c` for the first `k`
      samples of every channel, `n` being the channel count. */
  ghost predicate Interleaved<T>(input: seq<seq<T>>, out: seq<T>, k: nat) {
    forall i, c :: 0 <= i < k && 0 <= c < |input| && i < |input[c]| ==>
      Pos(i, c, |input|) < |out| && out[Pos(i, c, |input|)] == input[c][i]
  }

  /** The first `k` frames, as built by `Frames`, are interleaved. */
  lemma FramesIndexAll<T>(input: seq<seq<T>>, k: nat)
    requires forall c :: 0 <= c < |input| ==> k <= |input[c]|
    ensures Interleaved(input, Frames(input, k), k)
  {
    forall i, c | 0 <= i < k && 0 <= c < |input| && i < |input[c]|
      ensures Pos(i, c, |input|) < |Frames(input, k)| && Frames(input, k)[Pos(i, c, |input|)] == input[c][i]
    {
      FramesIndex(input, k, i, c);
    }
  }

  /** `interleave`: throws a `RangeError` unless `output` has room for exactly
      one quantum of every input channel; otherwise overwrites it with the
      interleaved quantum. The `chan` argument has no effect on the result. */
  method Interleave<T>(input: seq<seq<T>>, output: seq<T>, chan: Option<int>) returns (r: Result<seq<T>>)
    requires forall c :: 0 <= c < |input| ==> Quantum <= |input[c]|
    ensures r.Failure? <==> |input| * Quantum != |output|
    ensures r.Failure? ==> r.error == RangeError
    ensures r.Success? ==> |r.value| == |output|
    ensures r.Success? ==> Interleaved(input, r.value, Quantum)
  {
    if |input| * Quantum != |output| {
      return Failure(RangeError);
    }
    var n := |input|;
    // Every slot of `output` is overwritten, so the result is built afresh.
    var out: seq<T> := [];
    var i := 0;
    while i < Quantum
      invariant i <= Quantum
      invariant out == Frames(input, i)
    {
      var channel := 0;
      while channel < n
        invariant channel <= n
        invariant out == Frames(input, i) + Column(input, i)[..channel]
      {
        assert Column(input, i)[..channel + 1] == Column(input, i)[..channel] + [input[channel][i]];
        out := out + [input[channel][i]];
        channel := channel + 1;
      }
      assert Column(input, i)[..n] == Column(input, i);
      i := i + 1;
    }
    FramesIndexAll(input, Quantum);
    r := Success(out);
  }
}

=== FILE: midi_player.dfy ===
/** `MIDIPlayerProcessor`: a player whose content is a list of time buckets
    ("instants") of scheduled notes. For each block it picks the bucket
    holding the start of the block's window and emits a note-on/note-off
    pair of WAM MIDI events for every note of that bucket whose local offset
    falls inside the window. */
module MidiPlayer {
  import opened Outcomes
  import BasePlayer

  /** A MIDI channel (the low nibble of a status byte). */
  type Channel = c: nat | c < 16

  datatype MidiNote = MidiNote(note: int, velocity: int, channel: Channel, duration: real)

  /** A note and its offset, in milliseconds, from the start of its bucket. */
  datatype ScheduledNote = ScheduledNote(offset: real, note: MidiNote)

  type Instant = seq<ScheduledNote>

  datatype Midi = Midi(base: BasePlayer.Player, instants: Option<seq<Instant>>, instantDuration: real)

  /** Bucket length, in milliseconds, until a message sets another one. */
  const DefaultInstantDuration: real := 1000.0

  /** A freshly constructed processor. */
  function Initial(): (m: Midi)
    ensures m.base == BasePlayer.Initial() && m.instants.None?
    ensures m.instantDuration == 1000.0
  {
    Midi(BasePlayer.Initial(), None, DefaultInstantDuration)
  }

  datatype MidiUpdate = MidiUpdate(base: BasePlayer.Update, instants: Option<seq<Instant>>, instantDuration: Option<real>)

  /** `onmessage`: the base player's updates first, then the content and
      the bucket length, each only when present. */
  function OnMessage(m: Midi, u: MidiUpdate): (r: Midi)
    ensures r.base == BasePlayer.OnMessage(m.base, u.base)
    ensures r.instants == (if u.instants.Some? then u.instants else m.instants)
    ensures r.instantDuration == (if u.instantDuration.Some? then u.instantDuration.value else m.instantDuration)
  {
    var r0 := m.(base := BasePlayer.OnMessage(m.base, u.base));
    var r1 := if u.instants.Some? then r0.(instants := u.instants) else r0;
    if u.instantDuration.Some? then r1.(instantDuration := u.instantDuration.value) else r1
  }

  /** Content and bucket length can be sent in separate messages, in either
      order, with the same result. */
  lemma ContentFieldsIndependent(m: Midi, insts: seq<Instant>, d: real)
    ensures var none := MidiUpdate(BasePlayer.NoUpdate, None, None);
            OnMessage(OnMessage(m, none.(instants := Some(insts))), none.(instantDuration := Some(d)))
            == OnMessage(OnMessage(m, none.(instantDuration := Some(d))), none.(instants := Some(insts)))
            == OnMessage(m, none.(instants := Some(insts), instantDuration := Some(d)))
  {
  }

  // ---------------------------------------------------------------------
  // Event encoding

  datatype StatusKind = NoteOnKind | NoteOffKind

  function KindCode(k: StatusKind): bv8 {
    match k
    case NoteOnKind => 0x90
    case NoteOffKind => 0x80
  }

  /** `0x90 | channel` or `0x80 | channel`: the high nibble names the
      message (9 note-on, 8 note-off) and the low nibble the channel. */
  function Status(k: StatusKind, channel: Channel): (s: int)
    ensures s / 16 == (if k == NoteOnKind then 9 else 8)
    ensures s % 16 == channel
  {
    ((KindCode(k) | channel as bv8) as int)
  }

  /** Reads kind and channel back from a status byte. */
  function DecodeStatus(s: int): Option<(StatusKind, Channel)> {
    if s / 16 == 9 && 0 <= s % 16 < 16 then Some((NoteOnKind, s % 16))
    else if s / 16 == 8 && 0 <= s % 16 < 16 then Some((NoteOffKind, s % 16))
    else None
  }

  lemma StatusRoundTrip(k: StatusKind, channel: Channel)
    ensures DecodeStatus(Status(k, channel)) == Some((k, channel))
  {
  }

  /** A `wam-midi` event: time offset from the start of the block and the
      three MIDI bytes. */
  datatype WamMidi = WamMidi(time: real, bytes: seq<int>)

  /** The note-on event `play` emits: at the start of the block, and its
      status byte decodes back to a note-on on the note's channel. */
  function NoteOn(n: MidiNote): (e: WamMidi)
    ensures e.time == 0.0 && |e.bytes| == 3
    ensures DecodeStatus(e.bytes[0]) == Some((NoteOnKind, n.channel))
    ensures e.bytes[1] == n.note && e.bytes[2] == n.velocity
  {
    WamMidi(0.0, [Status(NoteOnKind, n.channel), n.note, n.velocity])
  }

  /** The matching note-off: timed 0.001 before the note's duration, same
      note and velocity, a note-off status on the same channel. */
  function NoteOff(n: MidiNote): (e: WamMidi)
    ensures e.time == n.duration - 0.001 && |e.bytes| == 3
    ensures DecodeStatus(e.bytes[0]) == Some((NoteOffKind, n.channel))
    ensures e.bytes[1] == n.note && e.bytes[2] == n.velocity
  {
    WamMidi(n.duration - 0.001, [Status(NoteOffKind, n.channel), n.note, n.velocity])
  }

  // ---------------------------------------------------------------------
  // Event selection

  /** The half-open window test of `play`. */
  predicate InWindow(e: ScheduledNote, localFrom: real, localTo: real) {
    localFrom <= e.offset < localTo
  }

  /** The notes of `instant` inside the window, each as often as the bucket
      holds it. */
  function Selected(instant: Instant, localFrom: real, localTo: real): (r: Instant)
    ensures forall e :: e in r ==> InWindow(e, localFrom, localTo)
    ensures forall e :: multiset(r)[e] == (if InWindow(e, localFrom, localTo) then multiset(instant)[e] else 0)
  {
    if |instant| == 0 then []
    else
      assert instant == [instant[0]] + instant[1..];
      (if InWindow(instant[0], localFrom, localTo) then [instant[0]] else [])
      + Selected(instant[1..], localFrom, localTo)
  }

  /** The note-on/note-off pair of every note, in order. */
  function Pairs(notes: Instant): (r: seq<WamMidi>)
    ensures |r| == 2 * |notes|
    ensures forall k :: 0 <= k < |notes| ==> r[2 * k] == NoteOn(notes[k].note)
    ensures forall k :: 0 <= k < |notes| ==> r[2 * k + 1] == NoteOff(notes[k].note)
  {
    if |notes| == 0 then []
    else [NoteOn(notes[0].note), NoteOff(notes[0].note)] + Pairs(notes[1..])
  }

  /** The bucket holding time `from`. */
  function BucketIndex(from: real, instantDuration: real): int
    requires instantDuration > 0.0
  {
    (from / instantDuration).Floor
  }

  /** Time `t` relative to the start of bucket `i`. */
  function Shift(t: real, d: real, i: int): real {
    t - d * i as real
  }

  /** The window start lies inside the chosen bucket, and the local window
      is the global one shifted by the bucket's start. */
  lemma LocalWindowInBucket(from: real, to: real, d: real)
    requires d > 0.0
    ensures var i := BucketIndex(from, d);
            0.0 <= Shift(from, d, i) < d && Shift(to, d, i) - Shift(from, d, i) == to - from
  {
    var q := from / d;
    var ir := BucketIndex(from, d) as real;
    assert ir <= q < ir + 1.0;
    assert q * d == from;
    MulLeft(d, ir, q);
    MulLeft(d, q, ir + 1.0);
    assert d * (ir + 1.0) == d * ir + d;
    assert from < d * ir + d;
  }

  lemma MulLeft(d: real, a: real, b: real)
    requires d > 0.0 && a <= b
    ensures d * a <= d * b
    ensures a < b ==> d * a < d * b
  {
  }

  /** `play` for the window `[from, to)`: nothing without content or past the
      last bucket; a negative bucket index makes the loop iterate over
      `undefined`, which throws; otherwise the pairs of the selected notes of
      that one bucket. */
  function Play(m: Midi, from: real, to: real): (r: Result<seq<WamMidi>>)
    requires m.instantDuration > 0.0
    ensures m.instants.None? ==> r == Success([])
    ensures m.instants.Some? && BucketIndex(from, m.instantDuration) >= |m.instants.value| ==> r == Success([])
    ensures m.instants.Some? && BucketIndex(from, m.instantDuration) < 0 ==> r == Failure(TypeError)
  {
    if m.instants.None? then Success([])
    else
      var d := m.instantDuration;
      var i := BucketIndex(from, d);
      if i >= |m.instants.value| then Success([])
      else if i < 0 then Failure(TypeError)
      else
        Success(Pairs(Selected(m.instants.value[i], Shift(from, d, i), Shift(to, d, i))))
  }

  /** Every emitted pair belongs to a note of the chosen bucket inside the
      window, and a note inside the window appears as many times as it is
      scheduled: each match is emitted exactly once. */
  lemma PlayEmitsEachMatchOnce(m: Midi, from: real, to: real)
    requires m.instantDuration > 0.0 && m.instants.Some?
    requires 0 <= BucketIndex(from, m.instantDuration) < |m.instants.value|
    ensures var d := m.instantDuration;
            var i := BucketIndex(from, d);
            var bucket := m.instants.value[i];
            var sel := Selected(bucket, Shift(from, d, i), Shift(to, d, i));
            var r := Play(m, from, to);
            && r.Success? && |r.value| == 2 * |sel|
            && (forall k :: 0 <= k < |sel| ==>
                  InWindow(sel[k], Shift(from, d, i), Shift(to, d, i)) && sel[k] in bucket &&
                  r.value[2 * k] == NoteOn(sel[k].note) && r.value[2 * k + 1] == NoteOff(sel[k].note))
            && (forall e :: e in bucket && InWindow(e, Shift(from, d, i), Shift(to, d, i)) ==>
                  multiset(sel)[e] == multiset(bucket)[e])
  {
    var d := m.instantDuration;
    var i := BucketIndex(from, d);
    var bucket := m.instants.value[i];
    var lf, lt := Shift(from, d, i), Shift(to, d, i);
    var sel := Selected(bucket, lf, lt);
    assert Play(m, from, to) == Success(Pairs(sel));
    forall k | 0 <= k < |sel|
      ensures sel[k] in bucket
    {
      assert multiset(sel)[sel[k]] > 0;
    }
  }

  /** Only the bucket holding the window start is scanned: a note at the
      very start of the next bucket is not emitted by a window that ends
      after it. */
  lemma OnlyOneBucketScanned()
    ensures var n := MidiNote(60, 100, 0, 500.0);
            var m := Initial().(instants := Some([[], [ScheduledNote(0.0, n)]]));
            Play(m, 990.0, 1010.0) == Success([])
  {
    var m := Initial().(instants := Some([[], [ScheduledNote(0.0, MidiNote(60, 100, 0, 500.0))]]));
    assert BucketIndex(990.0, 1000.0) == 0;
  }

  // ---------------------------------------------------------------------
  // One render quantum

  datatype MidiBlock = MidiBlock(state: Midi, alive: bool, posted: Option<real>, emitted: seq<WamMidi>)

  /** `process` of the base player with `play` bound to this player: gated
      blocks emit nothing; playing blocks emit what `play` selects for the
      block's window. */
  function Process(m: Midi, isPlaying: real, blockLength: nat, sampleRate: real): (r: Result<MidiBlock>)
    requires sampleRate > 0.0 && m.instantDuration > 0.0
    ensures isPlaying < 0.5 ==> r == Success(MidiBlock(m, true, None, []))
    ensures isPlaying >= 0.5 ==>
              var b := BasePlayer.Process(m.base, isPlaying, blockLength, sampleRate);
              var played := Play(m, b.window.value.from, b.window.value.to);
              && (r.Failure? <==> played.Failure?)
              && (r.Success? ==> r.value == MidiBlock(m.(base := b.player), b.alive, b.posted, played.value))
  {
    var b := BasePlayer.Process(m.base, isPlaying, blockLength, sampleRate);
    match b.window
    case None => Success(MidiBlock(m.(base := b.player), b.alive, b.posted, []))
    case Some(w) =>
      match Play(m.(base := b.player), w.from, w.to)
      case Failure(e) => Failure(e)
      case Success(events) => Success(MidiBlock(m.(base := b.player), b.alive, b.posted, events))
  }
}

=== FILE: outcomes.dfy ===
/** Failure-carrying results shared by every module of the model.
    The JavaScript exceptions the audio layer can raise are named by `Error`. */
module Outcomes {

  /** A value that may be absent: `undefined`, or a field missing from a message. */
  datatype Option<+T> = None | Some(value: T)

  /** The exceptions the modelled code raises, plus `MalformedSize` for a shared
      buffer whose byte length the ring buffer cannot lay out (see README). */
  datatype Error = TypeError | RangeError | MalformedSize

  /** Either a value or the exception that was thrown instead. */
  datatype Result<+T> = Success(value: T) | Failure(error: Error)

  function Min(a: int, b: int): (m: int)
    ensures m <= a && m <= b
    ensures m == a || m == b
  {
    if a <= b then a else b
  }
}

=== FILE: ring_buffer.dfy ===
/** The single-producer / single-consumer ring buffer of the sample recorder.

    A buffer is a storage array of `N = capacity + 1` slots and two cursors
    `wr` (next slot to write) and `rd` (next slot to read), both in `[0, N)`.
    One slot always stays free so that a full buffer (`wr + 1 == rd` modulo
    `N`) differs from an empty one (`wr == rd`). The queued elements, oldest
    first, are `Contents()`; every operation is specified by what it does to
    that sequence. The buffer is a value: operations return the new buffer. */
module RingBuffers {
  import opened Outcomes

  /** A typed-array constructor as the buffer sees it: its `name` and its
      `BYTES_PER_ELEMENT`, `None` when the constructor has none. */
  datatype ElementKind = ElementKind(name: string, bytesPerElement: Option<nat>)

  /** The shared memory starts with the write cursor (4 bytes) and the read
      cursor (4 bytes); the element storage follows. */
  const HeaderBytes: nat := 8

  /** `a % n` for `0 <= a < 2n`, written without a division. */
  function Wrap(n: nat, a: nat): (w: nat)
    requires 0 < n && a < 2 * n
    ensures w < n
  {
    if a < n then a else a - n
  }

  lemma ModIsWrap(n: nat, a: nat)
    requires 0 < n && a < 2 * n
    ensures a % n == Wrap(n, a)
  {
    if a < n {
      assert a == n * 0 + a;
    } else {
      assert a == n * 1 + (a - n);
    }
  }

  lemma MulDivCancel(x: nat, b: nat)
    requires 0 < b
    ensures (x * b) % b == 0 && (x * b) / b == x
  {
    var q, r := (x * b) / b, (x * b) % b;
    assert b * (x - q) == r;
    if x - q >= 1 {
      assert false;
    } else if x - q <= -1 {
      assert false;
    }
  }

  /** The number of elements a call asks for: `length` when given, otherwise
      the whole array. */
  function RequestedLength<T>(elements: seq<T>, length: Option<nat>): nat {
    if length.Some? then length.value else |elements|
  }

  datatype Ring<T> = Ring(kind: ElementKind, storage: seq<T>, wr: nat, rd: nat) {

    /** Both cursors index the storage, which has at least one slot. */
    predicate Valid() {
      0 < |storage| && wr < |storage| && rd < |storage|
    }

    /** The name of the element type, used for crude type checks. */
    function Type(): string {
      kind.name
    }

    /** The usable capacity: one slot fewer than the storage. */
    function Capacity(): (c: nat)
      requires Valid()
      ensures c < |storage|
    {
      |storage| - 1
    }

    /** Elements readable when the cursors are `rd` and `wr`. */
    function AvailableReadAt(rd: nat, wr: nat): (n: nat)
      requires Valid() && rd < |storage| && wr < |storage|
      ensures n <= Capacity()
      ensures Wrap(|storage|, rd + n) == wr
      ensures n == 0 <==> wr == rd
    {
      ModIsWrap(|storage|, wr + |storage| - rd);
      (wr + |storage| - rd) % |storage|
    }

    /** Free slots when the cursors are `rd` and `wr`. */
    function AvailableWriteAt(rd: nat, wr: nat): (n: nat)
      requires Valid() && rd < |storage| && wr < |storage|
      ensures n <= Capacity()
      ensures n + AvailableReadAt(rd, wr) == Capacity()
    {
      Capacity() - AvailableReadAt(rd, wr)
    }

    function AvailableRead(): nat
      requires Valid()
    {
      AvailableReadAt(rd, wr)
    }

    function AvailableWrite(): nat
      requires Valid()
    {
      AvailableWriteAt(rd, wr)
    }

    predicate Empty()
      requires Valid()
    {
      wr == rd
    }

    predicate Full()
      requires Valid()
    {
      (wr + 1) % |storage| == rd
    }

    /** The storage slot `k` places after the read cursor. */
    function Slot(k: nat): (p: nat)
      requires Valid() && k < |storage|
      ensures p < |storage|
    {
      Wrap(|storage|, rd + k)
    }

    /** The queued elements, oldest first. */
    function Contents(): (q: seq<T>)
      requires Valid()
      ensures |q| == AvailableRead()
      ensures forall k :: 0 <= k < |q| ==> q[k] == storage[Slot(k)]
    {
      seq(AvailableRead(), k requires 0 <= k < AvailableRead() => storage[Slot(k)])
    }
  }

  /** `getStorageForCapacity`: the byte size of shared memory able to hold
      `capacity` elements of `kind`. */
  function StorageForCapacity(capacity: nat, kind: ElementKind): (bytes: Result<nat>)
    ensures bytes.Failure? <==> kind.bytesPerElement.None? || kind.bytesPerElement.value == 0
    ensures bytes.Failure? ==> bytes.error == TypeError
  {
    if kind.bytesPerElement.None? || kind.bytesPerElement.value == 0 then Failure(TypeError)
    else Success(HeaderBytes + (capacity + 1) * kind.bytesPerElement.value)
  }

  /** The constructor: a buffer over `byteLength` bytes of fresh (zeroed)
      shared memory, every slot holding `zero`. */
  function FromStorage<T>(byteLength: nat, kind: ElementKind, zero: T): (r: Result<Ring<T>>)
    ensures kind.bytesPerElement.None? ==> r == Failure(TypeError)
    ensures kind.bytesPerElement.Some? && byteLength < HeaderBytes ==> r == Failure(RangeError)
    ensures r.Success? ==> r.value.Valid() && r.value.Empty() && r.value.kind == kind
    ensures r.Success? ==>
              HeaderBytes + |r.value.storage| * kind.bytesPerElement.value == byteLength
  {
    if kind.bytesPerElement.None? then Failure(TypeError)
    else
      var bpe := kind.bytesPerElement.value;
      if byteLength < HeaderBytes || bpe == 0 then Failure(RangeError)
      else if (byteLength - HeaderBytes) % bpe != 0 || byteLength == HeaderBytes then Failure(MalformedSize)
      else
        var slots := (byteLength - HeaderBytes) / bpe;
        Success(Ring(kind, seq(slots, _ => zero), 0, 0))
  }

  /** Memory sized by `StorageForCapacity(c, kind)` gives an empty buffer of
      `c + 1` slots whose usable capacity is `c`. */
  lemma {:induction false} CapacityRoundTrip<T>(c: nat, kind: ElementKind, zero: T)
    requires kind.bytesPerElement.Some? && kind.bytesPerElement.value > 0
    ensures StorageForCapacity(c, kind).Success?
    ensures StorageForCapacity(c, kind).value == HeaderBytes + (c + 1) * kind.bytesPerElement.value
    ensures var r := FromStorage(StorageForCapacity(c, kind).value, kind, zero);
            r.Success? && |r.value.storage| == c + 1 && r.value.Capacity() == c && r.value.Empty()
  {
    MulDivCancel(c + 1, kind.bytesPerElement.value);
  }

  /** `empty()` holds exactly when nothing is queued. */
  lemma EmptyIffNothingQueued<T>(b: Ring<T>)
    requires b.Valid()
    ensures b.Empty() <==> |b.Contents()| == 0
    ensures b.Empty() <==> b.AvailableWrite() == b.Capacity()
  {
  }

  /** `full()` holds exactly when no slot is free. */
  lemma {:induction false} FullIffNoSpace<T>(b: Ring<T>)
    requires b.Valid()
    ensures b.Full() <==> b.AvailableWrite() == 0
    ensures b.Full() <==> |b.Contents()| == b.Capacity()
  {
    var n := |b.storage|;
    ModIsWrap(n, b.wr + 1);
    ModIsWrap(n, b.wr + n - b.rd);
  }

  /** With at least two slots a buffer is never both full and empty. */
  lemma {:induction false} NeverFullAndEmpty<T>(b: Ring<T>)
    requires b.Valid() && |b.storage| >= 2
    ensures !(b.Full() && b.Empty())
  {
    ModIsWrap(|b.storage|, b.wr + 1);
  }

  /** `_copy`: `size` elements of `input` from `offsetInput` overwrite `output`
      from `offsetOutput`; the other slots of `output` keep their values. */
  method Copy<T>(input: seq<T>, offsetInput: nat, output: seq<T>, offsetOutput: nat, size: nat)
    returns (out: seq<T>)
    requires offsetInput + size <= |input| && offsetOutput + size <= |output|
    ensures |out| == |output|
    ensures forall p :: offsetOutput <= p < offsetOutput + size ==>
              out[p] == input[offsetInput + (p - offsetOutput)]
    ensures forall p :: 0 <= p < |output| && !(offsetOutput <= p < offsetOutput + size) ==>
              out[p] == output[p]
  {
    out := output;
    var i := 0;
    while i < size
      invariant i <= size && |out| == |output|
      invariant forall p :: offsetOutput <= p < offsetOutput + i ==>
                  out[p] == input[offsetInput + (p - offsetOutput)]
      invariant forall p :: 0 <= p < |output| && !(offsetOutput <= p < offsetOutput + i) ==>
                  out[p] == output[p]
    {
      out := out[offsetOutput + i := input[offsetInput + i]];
      i := i + 1;
    }
  }

  /** Writing `xs` into the `n` free slots after the queued elements, and
      moving the write cursor past them, appends `xs` to the queue. */
  lemma {:induction false} WriteAppends<T>(b: Ring<T>, s: seq<T>, xs: seq<T>)
    requires b.Valid() && |s| == |b.storage|
    requires |xs| <= b.AvailableWrite()
    requires forall k :: 0 <= k < b.AvailableRead() ==> s[b.Slot(k)] == b.storage[b.Slot(k)]
    requires forall k :: b.AvailableRead() <= k < b.AvailableRead() + |xs| ==>
               s[b.Slot(k)] == xs[k - b.AvailableRead()]
    ensures var b' := b.(storage := s, wr := b.Slot(b.AvailableRead() + |xs|));
            b'.Valid() && b'.Contents() == b.Contents() + xs
  {
    var b' := b.(storage := s, wr := b.Slot(b.AvailableRead() + |xs|));
    assert b'.Valid();
    var m := b.AvailableRead() + |xs|;
    assert b'.AvailableRead() == m by {
      var n := |b.storage|;
      ModIsWrap(n, b'.wr + n - b.rd);
    }
    assert forall k :: 0 <= k < m ==> b'.Slot(k) == b.Slot(k);
  }

  /** Moving the read cursor past `n` queued elements drops them from the
      front of the queue. */
  lemma {:induction false} ReadDrops<T>(b: Ring<T>, n: nat)
    requires b.Valid() && n <= b.AvailableRead()
    ensures var b' := b.(rd := b.Slot(n));
            b'.Valid() && b'.Contents() == b.Contents()[n..]
  {
    var b' := b.(rd := b.Slot(n));
    var sz := |b.storage|;
    assert b'.AvailableRead() == b.AvailableRead() - n by {
      ModIsWrap(sz, b.wr + sz - b'.rd);
    }
    assert forall k :: 0 <= k < b'.AvailableRead() ==> b'.Slot(k) == b.Slot(n + k);
  }

  /** The slot `m` places past the end of the queue is `m` places past the
      write cursor. */
  lemma SlotPastQueue<T>(b: Ring<T>, m: nat)
    requires b.Valid() && m <= b.AvailableWrite()
    ensures b.AvailableRead() + m < |b.storage|
    ensures b.wr + m < 2 * |b.storage|
    ensures b.Slot(b.AvailableRead() + m) == Wrap(|b.storage|, b.wr + m)
  {
  }

  /** The two copy runs of `push` leave the queued slots alone: they only
      touch free slots. */
  lemma QueueKept<T>(b: Ring<T>, toWrite: nat, firstPart: nat, s: seq<T>)
    requires b.Valid() && toWrite <= b.AvailableWrite()
    requires firstPart == Min(|b.storage| - b.wr, toWrite)
    requires |s| == |b.storage|
    requires forall p :: 0 <= p < |s| && !(b.wr <= p < b.wr + firstPart) && !(0 <= p < toWrite - firstPart) ==>
               s[p] == b.storage[p]
    ensures forall k :: 0 <= k < b.AvailableRead() ==> s[b.Slot(k)] == b.storage[b.Slot(k)]
  {
  }

  /** The two copy runs of `push` put the new elements, in order, into the
      slots following the queue. */
  lemma {:induction false} RunsWritten<T>(b: Ring<T>, elements: seq<T>, offset: nat, toWrite: nat,
                                          firstPart: nat, s: seq<T>)
    requires b.Valid() && toWrite <= b.AvailableWrite() && offset + toWrite <= |elements|
    requires firstPart == Min(|b.storage| - b.wr, toWrite)
    requires |s| == |b.storage|
    requires forall p :: b.wr <= p < b.wr + firstPart ==> s[p] == elements[offset + (p - b.wr)]
    requires forall p :: 0 <= p < toWrite - firstPart ==> s[p] == elements[offset + firstPart + p]
    ensures forall k :: b.AvailableRead() <= k < b.AvailableRead() + toWrite ==>
              s[b.Slot(k)] == elements[offset + (k - b.AvailableRead())]
  {
    var avail := b.AvailableRead();
    forall k | avail <= k < avail + toWrite
      ensures s[b.Slot(k)] == elements[offset + (k - avail)]
    {
      if k - avail < firstPart {
        assert b.Slot(k) == b.wr + (k - avail);
      } else {
        assert b.Slot(k) == k - avail - firstPart;
      }
    }
  }

  /** The two copy runs of `push` (`firstPart` slots from the write cursor,
      then the rest from slot 0) fill exactly the free slots after the queue. */
  lemma {:induction false} PushEffect<T>(b: Ring<T>, elements: seq<T>, offset: nat, toWrite: nat,
                                         firstPart: nat, s: seq<T>)
    requires b.Valid() && !b.Full()
    requires toWrite <= b.AvailableWrite() && offset + toWrite <= |elements|
    requires firstPart == Min(|b.storage| - b.wr, toWrite)
    requires |s| == |b.storage|
    requires forall p :: b.wr <= p < b.wr + firstPart ==> s[p] == elements[offset + (p - b.wr)]
    requires forall p :: 0 <= p < toWrite - firstPart ==> s[p] == elements[offset + firstPart + p]
    requires forall p :: 0 <= p < |s| && !(b.wr <= p < b.wr + firstPart) && !(0 <= p < toWrite - firstPart) ==>
               s[p] == b.storage[p]
    ensures var b' := b.(storage := s, wr := b.Slot(b.AvailableRead() + toWrite));
            b'.Valid() && b'.Contents() == b.Contents() + elements[offset..offset + toWrite]
  {
    var xs := elements[offset..offset + toWrite];
    assert |xs| == toWrite;
    QueueKept(b, toWrite, firstPart, s);
    RunsWritten(b, elements, offset, toWrite, firstPart, s);
    WriteAppends(b, s, xs);
  }

  /** The two copy runs of `pop` deliver the oldest queued elements in order. */
  lemma {:induction false} PopCopied<T>(b: Ring<T>, elements: seq<T>, offset: nat, toRead: nat,
                                        firstPart: nat, out: seq<T>)
    requires b.Valid()
    requires toRead <= b.AvailableRead() && offset + toRead <= |elements| == |out|
    requires firstPart == Min(|b.storage| - b.rd, toRead)
    requires forall p :: offset <= p < offset + firstPart ==> out[p] == b.storage[b.rd + (p - offset)]
    requires forall p :: offset + firstPart <= p < offset + toRead ==>
               out[p] == b.storage[0 + (p - (offset + firstPart))]
    ensures out[offset..offset + toRead] == b.Contents()[..toRead]
  {
    forall k | 0 <= k < toRead
      ensures out[offset + k] == b.Contents()[k]
    {
      if k < firstPart {
        assert b.Slot(k) == b.rd + k;
      } else {
        assert b.Slot(k) == k - firstPart;
      }
    }
  }

  /** The copy half of `push`: `toWrite` elements of `elements` from
      `offset` go into the free slots after the write cursor, as one run up to
      the end of the storage and one run from slot 0. */
  method WriteRuns<T>(b: Ring<T>, elements: seq<T>, offset: nat, toWrite: nat) returns (s: seq<T>)
    requires b.Valid() && !b.Full()
    requires toWrite <= b.AvailableWrite() && offset + toWrite <= |elements|
    ensures |s| == |b.storage|
    ensures var b' := b.(storage := s, wr := b.Slot(b.AvailableRead() + toWrite));
            b'.Valid() && b'.Contents() == b.Contents() + elements[offset..offset + toWrite]
  {
    var firstPart := Min(|b.storage| - b.wr, toWrite);
    var secondPart := toWrite - firstPart;
    s := Copy(elements, offset, b.storage, b.wr, firstPart);
    s := Copy(elements, offset + firstPart, s, 0, secondPart);
    PushEffect(b, elements, offset, toWrite, firstPart, s);
  }

  /** The copy half of `pop`: the `toRead` oldest queued elements go into
      `elements` from `offset`, as one run from the read cursor up to the end
      of the storage and one run from slot 0; other positions are kept. */
  method ReadRuns<T>(b: Ring<T>, elements: seq<T>, offset: nat, toRead: nat) returns (out: seq<T>)
    requires b.Valid()
    requires toRead <= b.AvailableRead() && offset + toRead <= |elements|
    ensures |out| == |elements|
    ensures out[offset..offset + toRead] == b.Contents()[..toRead]
    ensures forall p :: 0 <= p < |elements| && !(offset <= p < offset + toRead) ==> out[p] == elements[p]
  {
    var firstPart := Min(|b.storage| - b.rd, toRead);
    var secondPart := toRead - firstPart;
    var e1 := Copy(b.storage, b.rd, elements, offset, firstPart);
    out := Copy(b.storage, 0, e1, offset + firstPart, secondPart);
    assert forall p :: 0 <= p < |elements| && !(offset <= p < offset + toRead) ==>
             out[p] == e1[p] == elements[p];
    PopCopied(b, elements, offset, toRead, firstPart, out);
  }

  /** `push`: copies up to `length` elements of `elements`, read from `offset`,
      into the free slots in at most two runs split at the end of the
      storage, then publishes the new write cursor. */
  method Push<T>(b: Ring<T>, elements: seq<T>, length: Option<nat>, offset: nat)
    returns (b': Ring<T>, written: nat)
    requires b.Valid()
    requires offset + Min(b.AvailableWrite(), RequestedLength(elements, length)) <= |elements|
    ensures b'.Valid() && b'.kind == b.kind && |b'.storage| == |b.storage|
    ensures b.Full() ==> written == 0 && b' == b
    ensures written == Min(b.AvailableWrite(), RequestedLength(elements, length))
    ensures b'.rd == b.rd
    ensures b'.wr == Wrap(|b.storage|, b.wr + written)
    ensures b'.Contents() == b.Contents() + elements[offset..offset + written]
  {
    var rd := b.rd;
    var wr := b.wr;
    var n := |b.storage|;
    if (wr + 1) % n == rd {
      FullIffNoSpace(b);
      return b, 0;
    }
    var len := RequestedLength(elements, length);
    var toWrite := Min(b.AvailableWriteAt(rd, wr), len);
    var s := WriteRuns(b, elements, offset, toWrite);
    var newWr := (wr + toWrite) % n;
    ModIsWrap(n, wr + toWrite);
    SlotPastQueue(b, toWrite);
    b' := b.(storage := s, wr := newWr);
    written := toWrite;
  }

  /** `pop`: copies up to `length` queued elements, oldest first, into
      `elements` from `offset`, in at most two runs split at the end of the
      storage, then publishes the new read cursor. */
  method Pop<T>(b: Ring<T>, elements: seq<T>, length: Option<nat>, offset: nat)
    returns (b': Ring<T>, elements': seq<T>, read: nat)
    requires b.Valid()
    requires offset + Min(b.AvailableRead(), RequestedLength(elements, length)) <= |elements|
    ensures b'.Valid() && b'.kind == b.kind && b'.storage == b.storage && b'.wr == b.wr
    ensures b.Empty() ==> read == 0 && b' == b && elements' == elements
    ensures read == Min(b.AvailableRead(), RequestedLength(elements, length))
    ensures b'.rd == Wrap(|b.storage|, b.rd + read)
    ensures |elements'| == |elements|
    ensures elements'[offset..offset + read] == b.Contents()[..read]
    ensures forall p :: 0 <= p < |elements| && !(offset <= p < offset + read) ==>
              elements'[p] == elements[p]
    ensures b'.Contents() == b.Contents()[read..]
  {
    var rd := b.rd;
    var wr := b.wr;
    var n := |b.storage|;
    if wr == rd {
      return b, elements, 0;
    }
    var len := RequestedLength(elements, length);
    var toRead := Min(b.AvailableReadAt(rd, wr), len);
    elements' := ReadRuns(b, elements, offset, toRead);
    var newRd := (rd + toRead) % n;
    ModIsWrap(n, rd + toRead);
    assert newRd == b.Slot(toRead);
    ReadDrops(b, toRead);
    b' := b.(rd := newRd);
    read := toRead;
  }

  /** One step of a single-threaded interleaving of producer and consumer:
      push all of `items`, or pop as many elements as `into` can hold. */
  datatype Op<T> = PushOp(items: seq<T>) | PopOp(into: seq<T>)

  /** What a run of operations leaves: the queue, and the elements accepted
      by the pushes and returned by the pops, in order. */
  datatype Trace<T> = Trace(queue: seq<T>, accepted: seq<T>, popped: seq<T>)

  /** `t` followed by `u`. */
  function Then<T>(t: Trace<T>, u: Trace<T>): Trace<T> {
    Trace(u.queue, t.accepted + u.accepted, t.popped + u.popped)
  }

  /** The reference queue, independent of slots and cursors: a FIFO `q`
      holding at most `capacity` elements. A push accepts the prefix of its
      items that fits; a pop takes as many of the oldest elements as it has
      room for. */
  function QueueStep<T>(q: seq<T>, capacity: nat, op: Op<T>): Trace<T> {
    match op
    case PushOp(items) =>
      var n: nat := Min(if |q| <= capacity then capacity - |q| else 0, |items|);
      Trace(q + items[..n], items[..n], [])
    case PopOp(into) =>
      var n: nat := Min(|q|, |into|);
      Trace(q[n..], [], q[..n])
  }

  /** The reference queue running `ops` in order. */
  function QueueRun<T>(q: seq<T>, capacity: nat, ops: seq<Op<T>>): Trace<T>
    decreases |ops|
  {
    if |ops| == 0 then Trace(q, [], [])
    else
      var s := QueueStep(q, capacity, ops[0]);
      Then(s, QueueRun(s.queue, capacity, ops[1..]))
  }

  /** One step of the reference queue is first-in first-out and keeps the
      queue within its capacity. */
  lemma QueueStepIsFifo<T>(q: seq<T>, capacity: nat, op: Op<T>)
    ensures var s := QueueStep(q, capacity, op);
            q + s.accepted == s.popped + s.queue
    ensures |q| <= capacity ==> |QueueStep(q, capacity, op).queue| <= capacity
  {
    if op.PopOp? {
      var n := Min(|q|, |op.into|);
      assert q == q[..n] + q[n..];
    }
  }

  /** The reference queue is first-in first-out and bounded: the initial
      queue followed by everything accepted is everything popped followed by
      what is left, and a queue within its capacity stays within it. */
  lemma {:induction false} QueueRunIsFifo<T>(q: seq<T>, capacity: nat, ops: seq<Op<T>>)
    ensures var t := QueueRun(q, capacity, ops);
            q + t.accepted == t.popped + t.queue
    ensures |q| <= capacity ==> |QueueRun(q, capacity, ops).queue| <= capacity
    decreases |ops|
  {
    if |ops| > 0 {
      var s := QueueStep(q, capacity, ops[0]);
      var u := QueueRun(s.queue, capacity, ops[1..]);
      QueueStepIsFifo(q, capacity, ops[0]);
      QueueRunIsFifo(s.queue, capacity, ops[1..]);
      assert QueueRun(q, capacity, ops) == Then(s, u);
      FifoChain(q, s.accepted, s.popped, s.queue, u.accepted, u.popped, u.queue);
    }
  }

  /** Two FIFO segments in a row make one. */
  lemma FifoChain<T>(q: seq<T>, a1: seq<T>, p1: seq<T>, q1: seq<T>, a2: seq<T>, p2: seq<T>, q2: seq<T>)
    requires q + a1 == p1 + q1 && q1 + a2 == p2 + q2
    ensures q + (a1 + a2) == (p1 + p2) + q2
  {
    calc {
      q + (a1 + a2);
      (q + a1) + a2;
      (p1 + q1) + a2;
      p1 + (q1 + a2);
      p1 + (p2 + q2);
      (p1 + p2) + q2;
    }
  }

  /** Runs one operation on the ring: it does to the queue exactly what the
      reference queue of the same capacity does. */
  method Apply<T>(b: Ring<T>, op: Op<T>) returns (b': Ring<T>, accepted: seq<T>, popped: seq<T>)
    requires b.Valid()
    ensures b'.Valid() && |b'.storage| == |b.storage|
    ensures Trace(b'.Contents(), accepted, popped) == QueueStep(b.Contents(), b.Capacity(), op)
  {
    match op
    case PushOp(items) =>
      var written;
      b', written := Push(b, items, None, 0);
      accepted, popped := items[..written], [];
    case PopOp(into) =>
      var out, read;
      b', out, read := Pop(b, into, None, 0);
      accepted, popped := [], out[..read];
  }

  /** Runs `ops` in order on the ring. Whatever the interleaving of pushes
      and pops, the ring behaves as the reference queue: the same elements
      are accepted, popped and left over, so they come out in the order they
      went in. */
  method Replay<T>(b: Ring<T>, ops: seq<Op<T>>) returns (b': Ring<T>, accepted: seq<T>, popped: seq<T>)
    requires b.Valid()
    ensures b'.Valid() && |b'.storage| == |b.storage|
    ensures Trace(b'.Contents(), accepted, popped) == QueueRun(b.Contents(), b.Capacity(), ops)
    ensures b.Contents() + accepted == popped + b'.Contents()
  {
    var cap := b.Capacity();
    b' := b;
    accepted := [];
    popped := [];
    var i := 0;
    while i < |ops|
      invariant i <= |ops|
      invariant b'.Valid() && |b'.storage| == |b.storage| && b'.Capacity() == cap
      invariant QueueRun(b.Contents(), cap, ops)
                == Then(Trace(b'.Contents(), accepted, popped), QueueRun(b'.Contents(), cap, ops[i..]))
    {
      var next, acc, pop := Apply(b', ops[i]);
      var u := QueueRun(next.Contents(), cap, ops[i + 1..]);
      assert ops[i..][0] == ops[i] && ops[i..][1..] == ops[i + 1..];
      assert QueueRun(b'.Contents(), cap, ops[i..]) == Then(Trace(next.Contents(), acc, pop), u);
      assert (accepted + acc) + u.accepted == accepted + (acc + u.accepted);
      assert (popped + pop) + u.popped == popped + (pop + u.popped);
      accepted, popped, b' := accepted + acc, popped + pop, next;
      i := i + 1;
    }
    QueueRunIsFifo(b.Contents(), cap, ops);
  }

  /** Pushing `xs` into an empty buffer and then draining it returns the
      accepted prefix of `xs` unchanged; a push longer than the free space is
      cut short (an overrun) and the drain yields exactly what was accepted. */
  method PushThenDrain<T>(b: Ring<T>, xs: seq<T>, scratch: seq<T>) returns (written: nat, ys: seq<T>)
    requires b.Valid() && b.Empty()
    requires |scratch| >= b.Capacity()
    ensures written == Min(b.Capacity(), |xs|)
    ensures |xs| > b.Capacity() ==> written < |xs|
    ensures ys == xs[..written]
  {
    var b1;
    b1, written := Push(b, xs, None, 0);
    var b2, out, read := Pop(b1, scratch, None, 0);
    assert b1.Contents() == xs[..written];
    ys := out[..read];
  }
}

=== FILE: sample_recorder.dfy ===
/** `SampleRecorderProcessor`: an audio-worklet processor that either records
    its input into a ring buffer shared with a worker, or plays a resident
    multichannel buffer sample by sample, looping between two sample indices.
    Its `playhead`, `loopStart` and `loopEnd` count samples. */
module SampleRecorder {
  import opened Outcomes
  import opened Samples
  import RingBuffers
  import AudioWriters
  import Interleaving

  /** The scratch buffer holds one quantum of two interleaved channels. */
  const ScratchLength: nat := 2 * Interleaving.Quantum

  datatype Recorder = Recorder(
    audio: Option<seq<seq<Sample>>>,
    playhead: int,
    loopStart: int,
    loopEnd: int,
    recording: bool,
    interleaved: seq<Sample>,
    sab: Option<nat>,                          // byte length of the shared memory
    writer: Option<AudioWriters.AudioWriter>,
    inputChannel: Option<int>)

  /** A freshly constructed processor. */
  function Initial(): (r: Recorder)
    ensures r.audio.None? && r.writer.None? && r.sab.None? && !r.recording
    ensures r.playhead == 0 && r.loopStart == 0 && r.loopEnd == 0
    ensures r.inputChannel.None?
    ensures |r.interleaved| == ScratchLength
    ensures forall i :: 0 <= i < |r.interleaved| ==> r.interleaved[i] == Num(0.0)
  {
    Recorder(None, 0, 0, 0, false, seq(ScratchLength, _ => Num(0.0)), None, None, None)
  }

  // ---------------------------------------------------------------------
  // Control messages

  /** A control message: the fields it carries. Flags stand for fields whose
      value is not read. */
  datatype Message = Message(
    audio: Option<seq<seq<Sample>>>,
    playhead: Option<real>,
    removeAudio: bool,
    arm: bool,
    startRecording: bool,
    stopRecording: bool,
    sab: Option<nat>,
    stereo: Option<bool>,
    channelNum: Option<int>,
    loopStart: Option<int>,
    loopEnd: Option<int>)

  /** The fields `_onMessage` tests. */
  datatype Field = AudioField | PlayheadField | RemoveAudioField | ArmField | StartField
                 | StopField | SabField | StereoField | LoopStartField | LoopEndField

  /** The order in which the `else if` chain of `_onMessage` tests the
      fields; the only place that order is written down. */
  const ChainOrder: seq<Field> := [AudioField, PlayheadField, RemoveAudioField, ArmField, StartField,
                                   StopField, SabField, StereoField, LoopStartField, LoopEndField]

  /** The position of `f` in the chain. */
  function Rank(f: Field): (k: nat)
    ensures k < |ChainOrder| && ChainOrder[k] == f
  {
    match f
    case AudioField => 0
    case PlayheadField => 1
    case RemoveAudioField => 2
    case ArmField => 3
    case StartField => 4
    case StopField => 5
    case SabField => 6
    case StereoField => 7
    case LoopStartField => 8
    case LoopEndField => 9
  }

  predicate Present(m: Message, f: Field) {
    match f
    case AudioField => m.audio.Some?
    case PlayheadField => m.playhead.Some?
    case RemoveAudioField => m.removeAudio
    case ArmField => m.arm
    case StartField => m.startRecording
    case StopField => m.stopRecording
    case SabField => m.sab.Some?
    case StereoField => m.stereo.Some?
    case LoopStartField => m.loopStart.Some?
    case LoopEndField => m.loopEnd.Some?
  }

  /** One state update, one variant per field. */
  datatype Command =
    | SetAudio(audio: seq<seq<Sample>>)
    | SetPlayhead(position: real)
    | RemoveAudio
    | Arm
    | StartRecording
    | StopRecording
    | SetSab(byteLength: nat)
    | SetInput(stereo: bool, channelNum: Option<int>)
    | SetLoopStart(loopStart: int)
    | SetLoopEnd(loopEnd: int)

  function FieldOf(c: Command): Field {
    match c
    case SetAudio(_) => AudioField
    case SetPlayhead(_) => PlayheadField
    case RemoveAudio => RemoveAudioField
    case Arm => ArmField
    case StartRecording => StartField
    case StopRecording => StopField
    case SetSab(_) => SabField
    case SetInput(_, _) => StereoField
    case SetLoopStart(_) => LoopStartField
    case SetLoopEnd(_) => LoopEndField
  }

  /** `c` carries the value `m` holds for `c`'s field. */
  predicate Carries(m: Message, c: Command) {
    match c
    case SetAudio(a) => m.audio == Some(a)
    case SetPlayhead(p) => m.playhead == Some(p)
    case RemoveAudio => m.removeAudio
    case Arm => m.arm
    case StartRecording => m.startRecording
    case StopRecording => m.stopRecording
    case SetSab(n) => m.sab == Some(n)
    case SetInput(s, ch) => m.stereo == Some(s) && ch == m.channelNum
    case SetLoopStart(v) => m.loopStart == Some(v)
    case SetLoopEnd(v) => m.loopEnd == Some(v)
  }

  /** The command a present field of `m` stands for; it is the only command
      of that field carrying `m`'s value. */
  function CommandFor(m: Message, f: Field): (c: Command)
    requires Present(m, f)
    ensures FieldOf(c) == f && Carries(m, c)
  {
    match f
    case AudioField => SetAudio(m.audio.value)
    case PlayheadField => SetPlayhead(m.playhead.value)
    case RemoveAudioField => RemoveAudio
    case ArmField => Arm
    case StartField => StartRecording
    case StopField => StopRecording
    case SabField => SetSab(m.sab.value)
    case StereoField => SetInput(m.stereo.value, m.channelNum)
    case LoopStartField => SetLoopStart(m.loopStart.value)
    case LoopEndField => SetLoopEnd(m.loopEnd.value)
  }

  /** A command carrying `m`'s value for its field is that field's command. */
  lemma CarriesUnique(m: Message, d: Command)
    requires Carries(m, d)
    ensures Present(m, FieldOf(d)) && d == CommandFor(m, FieldOf(d))
  {
  }

  /** The command the `k`-th field of the chain gives when `m` holds it. */
  function CommandAt(m: Message, k: nat): seq<Command> {
    if k < |ChainOrder| && Present(m, ChainOrder[k]) then [CommandFor(m, ChainOrder[k])] else []
  }

  /** The commands `m` holds for the fields from the `k`-th of the chain on,
      in chain order. */
  function CommandsFrom(m: Message, k: nat): seq<Command>
    decreases |ChainOrder| - k
  {
    if k >= |ChainOrder| then [] else CommandAt(m, k) + CommandsFrom(m, k + 1)
  }

  /** Every command `m` holds, in chain order. */
  function Commands(m: Message): seq<Command> {
    CommandsFrom(m, 0)
  }

  /** Each command of `cs` is carried by a present field of `m` from the
      `k`-th of the chain on. */
  predicate SoundFrom(m: Message, k: nat, cs: seq<Command>) {
    forall i :: 0 <= i < |cs| ==> k <= Rank(FieldOf(cs[i])) && Present(m, FieldOf(cs[i])) && Carries(m, cs[i])
  }

  /** The commands of `cs` follow the chain order strictly. */
  predicate InChainOrder(cs: seq<Command>) {
    forall i, j :: 0 <= i < j < |cs| ==> Rank(FieldOf(cs[i])) < Rank(FieldOf(cs[j]))
  }

  /** Every present field of `m` from the `k`-th of the chain on has its
      command in `cs`. */
  predicate CompleteFrom(m: Message, k: nat, cs: seq<Command>) {
    forall f :: k <= Rank(f) && Present(m, f) ==> CommandFor(m, f) in cs
  }

  /** The `k`-th field of the chain gives its command exactly when present. */
  lemma CommandAtExact(m: Message, k: nat)
    ensures |CommandAt(m, k)| <= 1
    ensures SoundFrom(m, k, CommandAt(m, k))
    ensures forall i :: 0 <= i < |CommandAt(m, k)| ==> Rank(FieldOf(CommandAt(m, k)[i])) == k
    ensures forall f :: Rank(f) == k && Present(m, f) ==> CommandAt(m, k) == [CommandFor(m, f)]
  {
  }

  /** The commands from the `k`-th field on come from present fields from
      the `k`-th on and carry their values. */
  lemma {:induction false} CommandsFromSound(m: Message, k: nat)
    ensures SoundFrom(m, k, CommandsFrom(m, k))
    decreases |ChainOrder| - k
  {
    if k < |ChainOrder| {
      CommandsFromSound(m, k + 1);
      CommandAtExact(m, k);
      var head := CommandAt(m, k);
      var tail := CommandsFrom(m, k + 1);
      forall i | |head| <= i < |head + tail|
        ensures (head + tail)[i] == tail[i - |head|]
      {
      }
    }
  }

  /** The commands from the `k`-th field on follow the chain order. */
  lemma {:induction false} CommandsFromOrdered(m: Message, k: nat)
    ensures InChainOrder(CommandsFrom(m, k))
    decreases |ChainOrder| - k
  {
    if k < |ChainOrder| {
      CommandsFromOrdered(m, k + 1);
      CommandsFromSound(m, k + 1);
      CommandAtExact(m, k);
      var head := CommandAt(m, k);
      var tail := CommandsFrom(m, k + 1);
      var cs := head + tail;
      forall i, j | 0 <= i < j < |cs|
        ensures Rank(FieldOf(cs[i])) < Rank(FieldOf(cs[j]))
      {
        assert cs[j] == tail[j - |head|];
        if i >= |head| {
          assert cs[i] == tail[i - |head|];
        }
      }
    }
  }

  /** Every present field from the `k`-th on has its command among the
      commands from the `k`-th field on. */
  lemma {:induction false} CommandsFromComplete(m: Message, k: nat)
    ensures CompleteFrom(m, k, CommandsFrom(m, k))
    decreases |ChainOrder| - k
  {
    if k < |ChainOrder| {
      CommandsFromComplete(m, k + 1);
      CommandAtExact(m, k);
      var head := CommandAt(m, k);
      var tail := CommandsFrom(m, k + 1);
      forall f | k <= Rank(f) && Present(m, f)
        ensures CommandFor(m, f) in head + tail
      {
        if Rank(f) == k {
          assert (head + tail)[0] == CommandFor(m, f);
        } else {
          assert CommandFor(m, f) in tail;
        }
      }
    }
  }

  /** The commands from the `k`-th field on are exactly those of the present
      fields, one each, in chain order. */
  lemma CommandsFromExact(m: Message, k: nat)
    ensures SoundFrom(m, k, CommandsFrom(m, k))
    ensures InChainOrder(CommandsFrom(m, k))
    ensures CompleteFrom(m, k, CommandsFrom(m, k))
  {
    CommandsFromSound(m, k);
    CommandsFromOrdered(m, k);
    CommandsFromComplete(m, k);
  }

  /** Where a present field's command sits among the message's commands. */
  lemma CommandIndex(m: Message, f: Field) returns (i: nat)
    requires Present(m, f)
    ensures i < |Commands(m)| && Commands(m)[i] == CommandFor(m, f)
  {
    CommandsFromComplete(m, 0);
    assert CommandFor(m, f) in Commands(m);
    i :| 0 <= i < |Commands(m)| && Commands(m)[i] == CommandFor(m, f);
  }

  /** Two of the message's commands, the later one from a present field of
      higher rank. */
  lemma CommandsAt(m: Message, i: nat, j: nat)
    requires i < j < |Commands(m)|
    ensures Rank(FieldOf(Commands(m)[i])) < Rank(FieldOf(Commands(m)[j]))
    ensures Present(m, FieldOf(Commands(m)[j]))
  {
    CommandsFromSound(m, 0);
    CommandsFromOrdered(m, 0);
  }

  /** The `if ... else if ...` chain of `_onMessage`: the first of the
      message's commands is the only one acted on. */
  function Decode(m: Message): (c: Option<Command>)
    ensures c.None? ==> forall f :: !Present(m, f)
    ensures c.Some? ==> Present(m, FieldOf(c.value)) && Carries(m, c.value)
    ensures c.Some? ==> forall f :: Rank(f) < Rank(FieldOf(c.value)) ==> !Present(m, f)
  {
    CommandsFromExact(m, 0);
    var cs := Commands(m);
    if |cs| == 0 then None else Some(cs[0])
  }

  /** `Math.round`: the nearest integer, halves rounded up. */
  function Round(x: real): (n: int)
    ensures n as real - 0.5 <= x < n as real + 0.5
  {
    (x + 0.5).Floor
  }

  /** Arming builds a ring buffer of 32-bit floats over the shared memory and
      wraps it in an `AudioWriter`; without shared memory this throws. */
  function ArmWriter(sab: Option<nat>): (w: Result<AudioWriters.AudioWriter>)
    ensures sab.None? ==> w == Failure(TypeError)
    ensures sab.Some? ==>
              (w.Success? <==> RingBuffers.FromStorage(sab.value, AudioWriters.Float32, Num(0.0)).Success?)
    ensures w.Success? ==> w.value.ring == RingBuffers.FromStorage(sab.value, AudioWriters.Float32, Num(0.0)).value
    ensures w.Success? ==> RingBuffers.HeaderBytes + 4 * |w.value.ring.storage| == sab.value
    ensures w.Success? ==> w.value.ring.Valid() && w.value.ring.Empty()
    ensures w.Success? ==> w.value.ring.Type() == "Float32Array"
  {
    if sab.None? then Failure(TypeError)
    else
      match RingBuffers.FromStorage(sab.value, AudioWriters.Float32, Num(0.0))
      case Failure(e) => Failure(e)
      case Success(ring) => AudioWriters.NewAudioWriter(ring)
  }

  /** The parts of the recorder a command can write. Setting and removing
      the audio write the same part, and so do starting and stopping. */
  datatype Item = AudioItem | PlayheadItem | WriterItem | RecordingItem | SabItem
                | InputItem | LoopStartItem | LoopEndItem

  function ItemOf(f: Field): Item {
    match f
    case AudioField => AudioItem
    case RemoveAudioField => AudioItem
    case PlayheadField => PlayheadItem
    case ArmField => WriterItem
    case StartField => RecordingItem
    case StopField => RecordingItem
    case SabField => SabItem
    case StereoField => InputItem
    case LoopStartField => LoopStartItem
    case LoopEndField => LoopEndItem
  }

  /** `a` and `b` hold the same value for `it`. */
  predicate Agree(a: Recorder, b: Recorder, it: Item) {
    match it
    case AudioItem => a.audio == b.audio
    case PlayheadItem => a.playhead == b.playhead
    case WriterItem => a.writer == b.writer
    case RecordingItem => a.recording == b.recording
    case SabItem => a.sab == b.sab
    case InputItem => a.inputChannel == b.inputChannel
    case LoopStartItem => a.loopStart == b.loopStart
    case LoopEndItem => a.loopEnd == b.loopEnd
  }

  /** `a` and `b` agree on the scratch buffer and on every item outside
      `items`. */
  predicate Unchanged(a: Recorder, b: Recorder, items: set<Item>) {
    a.interleaved == b.interleaved && forall it :: it !in items ==> Agree(a, b, it)
  }

  /** `a` and `b` agree on everything field `f` does not write. */
  predicate SameExcept(a: Recorder, b: Recorder, f: Field) {
    Unchanged(a, b, {ItemOf(f)})
  }

  /** The recorder item that `c` writes holds the value `c` carries. */
  predicate Holds(st: Recorder, c: Command) {
    match c
    case SetAudio(a) => st.audio == Some(a)
    case SetPlayhead(p) => st.playhead == Round(p)
    case RemoveAudio => st.audio.None?
    case Arm => st.writer.Some? && st.writer.value.ring.Valid() && st.writer.value.ring.Empty()
                && st.writer.value.ring.Type() == "Float32Array"
    case StartRecording => st.recording
    case StopRecording => !st.recording
    case SetSab(n) => st.sab == Some(n)
    case SetInput(stereo, ch) => st.inputChannel == (if stereo then None else ch)
    case SetLoopStart(v) => st.loopStart == v
    case SetLoopEnd(v) => st.loopEnd == v
  }

  /** Applies one command; every other item keeps its value. */
  function Apply(st: Recorder, c: Command): (r: Result<Recorder>)
    ensures c != Arm ==> r.Success?
    ensures r.Success? ==> Holds(r.value, c) && SameExcept(st, r.value, FieldOf(c))
    ensures c.SetPlayhead? ==> r == Success(st.(playhead := Round(c.position)))
    ensures c.SetInput? ==> r == Success(st.(inputChannel := if c.stereo then None else c.channelNum))
    ensures c == Arm ==> (r.Success? <==> ArmWriter(st.sab).Success?)
    ensures c == Arm && r.Success? ==> r.value == st.(writer := Some(ArmWriter(st.sab).value))
  {
    match c
    case SetAudio(a) => Success(st.(audio := Some(a)))
    case SetPlayhead(p) => Success(st.(playhead := Round(p)))
    case RemoveAudio => Success(st.(audio := None))
    case Arm =>
      (match ArmWriter(st.sab)
       case Failure(e) => Failure(e)
       case Success(w) => Success(st.(writer := Some(w))))
    case StartRecording => Success(st.(recording := true))
    case StopRecording => Success(st.(recording := false))
    case SetSab(n) => Success(st.(sab := Some(n)))
    case SetInput(stereo, ch) => Success(st.(inputChannel := if stereo then None else ch))
    case SetLoopStart(v) => Success(st.(loopStart := v))
    case SetLoopEnd(v) => Success(st.(loopEnd := v))
  }

  /** `_onMessage`: acts on the first field present; a message without any
      known field changes nothing; only an arm can fail, and a failed arm
      leaves the state as it was. */
  function OnMessage(st: Recorder, m: Message): (r: Result<Recorder>)
    ensures Decode(m).None? ==> r == Success(st)
    ensures Decode(m).Some? ==> r == Apply(st, Decode(m).value)
    ensures r.Failure? ==> m.arm
    ensures Decode(m).Some? && r.Success? ==>
              Holds(r.value, Decode(m).value) && SameExcept(st, r.value, FieldOf(Decode(m).value))
  {
    match Decode(m)
    case None => Success(st)
    case Some(c) => Apply(st, c)
  }

  /** The message with every field emptied. */
  const NoFields: Message := Message(None, None, false, false, false, false, None, None, None, None, None)

  /** The message holding field `f` of `m` and nothing else. */
  function Only(m: Message, f: Field): (m1: Message)
    ensures forall g :: Present(m1, g) <==> g == f && Present(m, g)
    ensures Present(m, f) ==> CommandFor(m1, f) == CommandFor(m, f)
  {
    match f
    case AudioField => NoFields.(audio := m.audio)
    case PlayheadField => NoFields.(playhead := m.playhead)
    case RemoveAudioField => NoFields.(removeAudio := m.removeAudio)
    case ArmField => NoFields.(arm := m.arm)
    case StartField => NoFields.(startRecording := m.startRecording)
    case StopField => NoFields.(stopRecording := m.stopRecording)
    case SabField => NoFields.(sab := m.sab)
    case StereoField => NoFields.(stereo := m.stereo, channelNum := m.channelNum)
    case LoopStartField => NoFields.(loopStart := m.loopStart)
    case LoopEndField => NoFields.(loopEnd := m.loopEnd)
  }

  /** A message without fields decodes to nothing. */
  lemma NoFieldsDecodeNone()
    ensures Decode(NoFields).None?
  {
  }

  /** A message holding a single field decodes to that field's command. */
  lemma DecodeOnly(m: Message, f: Field)
    requires Present(m, f)
    ensures Decode(Only(m, f)) == Some(CommandFor(m, f))
  {
    var m1 := Only(m, f);
    assert Present(m1, f);
    var d := Decode(m1).value;
    assert FieldOf(d) == f;
    CarriesUnique(m1, d);
  }

  /** The message reduced to the one field `_onMessage` acts on. */
  function OnlyFirstField(m: Message): Message {
    match Decode(m)
    case None => NoFields
    case Some(c) => Only(m, FieldOf(c))
  }

  /** Fields after the first present one are ignored: the message acts
      exactly as its first field alone. */
  lemma {:induction false} LaterFieldsIgnored(st: Recorder, m: Message)
    ensures OnMessage(st, m) == OnMessage(st, OnlyFirstField(m))
  {
    if Decode(m).Some? {
      var c := Decode(m).value;
      CarriesUnique(m, c);
      DecodeOnly(m, FieldOf(c));
      assert OnMessage(st, OnlyFirstField(m)) == Apply(st, c);
    } else {
      NoFieldsDecodeNone();
      assert OnMessage(st, OnlyFirstField(m)) == Success(st);
    }
  }

  /** A loop change as the track model sends it: both bounds in one
      message (the `loop` flag it also carries is not a field the recorder
      reads). */
  function LoopChange(loopStart: int, loopEnd: int): Message {
    NoFields.(loopStart := Some(loopStart), loopEnd := Some(loopEnd))
  }

  /** As written, a loop change sets the loop start only: the `else if`
      chain never reaches the loop end. */
  lemma LoopChangeDropsLoopEnd(st: Recorder, loopStart: int, loopEnd: int)
    ensures OnMessage(st, LoopChange(loopStart, loopEnd)).Success?
    ensures OnMessage(st, LoopChange(loopStart, loopEnd)).value.loopStart == loopStart
    ensures OnMessage(st, LoopChange(loopStart, loopEnd)).value.loopEnd == st.loopEnd
  {
    LoopChangeCommands(loopStart, loopEnd);
  }

  /** The items written by the commands `cs`. */
  function Touched(cs: seq<Command>): (items: set<Item>)
    ensures forall i :: 0 <= i < |cs| ==> ItemOf(FieldOf(cs[i])) in items
    ensures forall it :: it in items ==> exists i :: 0 <= i < |cs| && ItemOf(FieldOf(cs[i])) == it
    decreases |cs|
  {
    if |cs| == 0 then {}
    else
      var rest := Touched(cs[1..]);
      assert forall it :: it in rest ==> exists i :: 0 <= i < |cs| && ItemOf(FieldOf(cs[i])) == it by {
        forall it | it in rest
          ensures exists i :: 0 <= i < |cs| && ItemOf(FieldOf(cs[i])) == it
        {
          var j :| 0 <= j < |cs[1..]| && ItemOf(FieldOf(cs[1..][j])) == it;
          assert cs[j + 1] == cs[1..][j];
        }
      }
      {ItemOf(FieldOf(cs[0]))} + rest
  }

  /** No command after `cs[i]` writes the item `cs[i]` writes. */
  predicate LastWriter(cs: seq<Command>, i: nat)
    requires i < |cs|
  {
    ItemOf(FieldOf(cs[i])) !in Touched(cs[i + 1..])
  }

  /** `Holds` depends only on the item the command writes. */
  lemma HoldsKept(a: Recorder, b: Recorder, c: Command)
    requires Holds(a, c) && Agree(a, b, ItemOf(FieldOf(c)))
    ensures Holds(b, c)
  {
  }

  /** One more command in front of a run: the run's effect extends to the
      longer sequence. */
  lemma {:induction false} ApplyAllStep(st: Recorder, s: Recorder, cs: seq<Command>, r: Recorder)
    requires |cs| > 0 && Holds(s, cs[0]) && SameExcept(st, s, FieldOf(cs[0]))
    requires Unchanged(s, r, Touched(cs[1..]))
    requires forall i {:trigger LastWriter(cs[1..], i)} :: 0 <= i < |cs| - 1 && LastWriter(cs[1..], i) ==>
               Holds(r, cs[1..][i])
    ensures Unchanged(st, r, Touched(cs))
    ensures forall i {:trigger LastWriter(cs, i)} :: 0 <= i < |cs| && LastWriter(cs, i) ==> Holds(r, cs[i])
  {
    var first := ItemOf(FieldOf(cs[0]));
    assert Touched(cs) == {first} + Touched(cs[1..]);
    forall it | it !in Touched(cs)
      ensures Agree(st, r, it)
    {
      assert Agree(st, s, it) && Agree(s, r, it);
    }
    forall i | 0 <= i < |cs| && LastWriter(cs, i)
      ensures Holds(r, cs[i])
    {
      if i == 0 {
        HoldsKept(s, r, cs[0]);
      } else {
        assert cs[1..][i - 1] == cs[i] && cs[1..][i - 1 + 1..] == cs[i + 1..];
        assert LastWriter(cs[1..], i - 1);
      }
    }
  }

  /** Applies `cs` in order, stopping at the first failure. On success every
      command whose item no later command writes holds, and every item no
      command writes is unchanged. */
  function ApplyAll(st: Recorder, cs: seq<Command>): (r: Result<Recorder>)
    ensures (forall i :: 0 <= i < |cs| ==> cs[i] != Arm) ==> r.Success?
    ensures r.Success? ==> Unchanged(st, r.value, Touched(cs))
    ensures r.Success? ==>
              forall i {:trigger LastWriter(cs, i)} :: 0 <= i < |cs| && LastWriter(cs, i) ==> Holds(r.value, cs[i])
    ensures r.Success? && |cs| > 0 ==> Holds(r.value, cs[|cs| - 1])
    decreases |cs|
  {
    if |cs| == 0 then Success(st)
    else match Apply(st, cs[0])
      case Failure(e) => Failure(e)
      case Success(s) =>
        var r := ApplyAll(s, cs[1..]);
        if r.Failure? then r
        else
          ApplyAllStep(st, s, cs, r.value);
          assert cs[|cs| - 1 + 1..] == [] && LastWriter(cs, |cs| - 1);
          r
  }

  /** A message without the `arm` field holds no arm command. */
  lemma NoArmWithoutArmField(m: Message)
    ensures !m.arm ==> forall i :: 0 <= i < |Commands(m)| ==> Commands(m)[i] != Arm
  {
    CommandsFromSound(m, 0);
  }

  /** `_onMessage` with every present field acted on, in chain order, as the
      separate `if`s of the other processors do; a failed arm stops there. */
  function OnMessageEveryField(st: Recorder, m: Message): (r: Result<Recorder>)
    ensures !m.arm ==> r.Success?
    ensures r.Success? && |Commands(m)| > 0 ==> Holds(r.value, Commands(m)[|Commands(m)| - 1])
    ensures r.Success? ==> Unchanged(st, r.value, Touched(Commands(m)))
    ensures r.Success? ==>
              var cs := Commands(m);
              forall i {:trigger LastWriter(cs, i)} :: 0 <= i < |cs| && LastWriter(cs, i) ==> Holds(r.value, cs[i])
  {
    NoArmWithoutArmField(m);
    ApplyAll(st, Commands(m))
  }

  /** A present field that no later present field overrides is the last
      writer of its item among the message's commands. */
  lemma LastWriterIndex(m: Message, f: Field) returns (i: nat)
    requires Present(m, f)
    requires forall g :: Present(m, g) && Rank(f) < Rank(g) ==> ItemOf(g) != ItemOf(f)
    ensures i < |Commands(m)| && Commands(m)[i] == CommandFor(m, f) && LastWriter(Commands(m), i)
  {
    var cs := Commands(m);
    i := CommandIndex(m, f);
    var later := cs[i + 1..];
    forall j | 0 <= j < |later|
      ensures ItemOf(FieldOf(later[j])) != ItemOf(f)
    {
      assert later[j] == cs[i + 1 + j];
      CommandsAt(m, i, i + 1 + j);
    }
    assert ItemOf(f) !in Touched(later);
  }

  /** With every field acted on, each present field's value is in the
      result unless a later field of the chain writes the same item (a
      removal after an audio buffer, a stop after a start). */
  lemma EveryFieldActs(st: Recorder, m: Message, f: Field)
    requires OnMessageEveryField(st, m).Success? && Present(m, f)
    requires forall g :: Present(m, g) && Rank(f) < Rank(g) ==> ItemOf(g) != ItemOf(f)
    ensures Holds(OnMessageEveryField(st, m).value, CommandFor(m, f))
  {
    var i := LastWriterIndex(m, f);
  }

  /** With every field acted on, an item no present field writes keeps its
      value. */
  lemma AbsentFieldsKept(st: Recorder, m: Message, it: Item)
    requires OnMessageEveryField(st, m).Success?
    requires forall g :: Present(m, g) ==> ItemOf(g) != it
    ensures Agree(st, OnMessageEveryField(st, m).value, it)
  {
    CommandsFromExact(m, 0);
  }

  /** A loop change holds two commands: the loop start, then the loop end. */
  lemma LoopChangeCommands(loopStart: int, loopEnd: int)
    ensures Commands(LoopChange(loopStart, loopEnd)) == [SetLoopStart(loopStart), SetLoopEnd(loopEnd)]
  {
    var m := LoopChange(loopStart, loopEnd);
    assert CommandsFrom(m, 9) == [SetLoopEnd(loopEnd)] + CommandsFrom(m, 10);
    assert CommandsFrom(m, 8) == [SetLoopStart(loopStart)] + CommandsFrom(m, 9);
    assert CommandsFrom(m, 7) == CommandsFrom(m, 8) by { assert CommandAt(m, 7) == []; }
    assert CommandsFrom(m, 6) == CommandsFrom(m, 7) by { assert CommandAt(m, 6) == []; }
    assert CommandsFrom(m, 5) == CommandsFrom(m, 6) by { assert CommandAt(m, 5) == []; }
    assert CommandsFrom(m, 4) == CommandsFrom(m, 5) by { assert CommandAt(m, 4) == []; }
    assert CommandsFrom(m, 3) == CommandsFrom(m, 4) by { assert CommandAt(m, 3) == []; }
    assert CommandsFrom(m, 2) == CommandsFrom(m, 3) by { assert CommandAt(m, 2) == []; }
    assert CommandsFrom(m, 1) == CommandsFrom(m, 2) by { assert CommandAt(m, 1) == []; }
    assert CommandsFrom(m, 0) == CommandsFrom(m, 1) by { assert CommandAt(m, 0) == []; }
  }

  /** With every field acted on, a loop change sets both bounds. */
  lemma LoopChangeSetsBothBounds(st: Recorder, loopStart: int, loopEnd: int)
    ensures OnMessageEveryField(st, LoopChange(loopStart, loopEnd))
            == Success(st.(loopStart := loopStart, loopEnd := loopEnd))
  {
    LoopChangeCommands(loopStart, loopEnd);
    var cs := [SetLoopStart(loopStart), SetLoopEnd(loopEnd)];
    var s1 := st.(loopStart := loopStart);
    var s2 := s1.(loopEnd := loopEnd);
    assert Apply(st, SetLoopStart(loopStart)) == Success(s1);
    assert Apply(s1, SetLoopEnd(loopEnd)) == Success(s2);
    assert cs[1..] == [SetLoopEnd(loopEnd)] && cs[1..][1..] == [];
    assert ApplyAll(s2, []) == Success(s2);
    assert ApplyAll(s1, cs[1..]) == Success(s2);
  }

  // ---------------------------------------------------------------------
  // Playback

  /** The automation value of a `playing` or `loop` parameter at sample `i`,
      as a boolean: its own entry, or entry 0 when the array is shorter (a
      control-rate parameter); an empty array reads `undefined`, false. */
  function ParamAt(values: seq<real>, i: nat): bool {
    if i < |values| then values[i] != 0.0
    else if 0 < |values| then values[0] != 0.0
    else false
  }

  /** An audio-rate parameter is read at the sample itself, a control-rate
      one (a single value) holds for the whole block, and a missing one reads
      as false. */
  lemma ParamAtRates(values: seq<real>, i: nat)
    ensures i < |values| ==> (ParamAt(values, i) <==> values[i] != 0.0)
    ensures |values| == 1 ==> ParamAt(values, i) == ParamAt(values, 0)
    ensures |values| == 0 ==> !ParamAt(values, i)
  {
  }

  /** Where sample `i` reads from: the loop start when looping and the
      playhead sits exactly on the loop end, the playhead otherwise. */
  function StartPosition(playhead: int, loopStart: int, loopEnd: int, looping: bool): int {
    if looping && playhead == loopEnd then loopStart else playhead
  }

  /** A playhead and the output channels being written. */
  datatype Playback = Playback(playhead: int, output: seq<seq<Sample>>)

  predicate HasSample(output: seq<seq<Sample>>, i: nat) {
    forall c :: 0 <= c < |output| ==> i < |output[c]|
  }

  /** Writes `audio[c][pos]` at sample `i` of the first
      `min(audio.length, output.length)` output channels. */
  function CopyChannels(audio: seq<seq<Sample>>, output: seq<seq<Sample>>, i: nat, pos: int)
    : (r: seq<seq<Sample>>)
    requires HasSample(output, i)
    ensures |r| == |output|
    ensures forall c :: 0 <= c < |r| ==> |r[c]| == |output[c]|
    ensures forall c, k :: 0 <= c < |r| && 0 <= k < |r[c]| ==>
              r[c][k] == (if k == i && c < Min(|audio|, |output|) then ReadAt(audio[c], pos) else output[c][k])
  {
    seq(|output|, c requires 0 <= c < |output| =>
      if c < Min(|audio|, |output|) then output[c][i := ReadAt(audio[c], pos)] else output[c])
  }

  /** One iteration of the playback loop, as written: the copy guard is
      `playhead <= audioLength`, which lets index `audioLength` through. */
  function StepAsWritten(audio: seq<seq<Sample>>, loopStart: int, loopEnd: int, p: Playback,
                         i: nat, playing: bool, looping: bool): (r: Playback)
    requires playing ==> 1 <= |audio|
    requires HasSample(p.output, i)
    ensures !playing ==> r == p
    ensures playing ==> r.playhead == StartPosition(p.playhead, loopStart, loopEnd, looping) + 1
  {
    if !playing then p
    else
      var pos := StartPosition(p.playhead, loopStart, loopEnd, looping);
      var out := if pos <= |audio[0]| then CopyChannels(audio, p.output, i, pos) else p.output;
      Playback(pos + 1, out)
  }

  /** The copy guard as evidently intended: only samples that exist are read. */
  predicate InAudio(pos: int, audioLength: nat) {
    0 <= pos < audioLength
  }

  /** One iteration of the playback loop: skipped when not playing; otherwise
      the playhead jumps to the loop start if it sits on the loop end while
      looping, the sample at the playhead is copied to every channel present
      in both the audio and the output, and the playhead moves on by one. */
  function Step(audio: seq<seq<Sample>>, loopStart: int, loopEnd: int, p: Playback,
                i: nat, playing: bool, looping: bool): (r: Playback)
    requires playing ==> 1 <= |audio|
    requires HasSample(p.output, i)
    ensures !playing ==> r == p
    ensures playing ==> r.playhead == StartPosition(p.playhead, loopStart, loopEnd, looping) + 1
    ensures |r.output| == |p.output|
    ensures forall c :: 0 <= c < |r.output| ==> |r.output[c]| == |p.output[c]|
    ensures forall c, k :: 0 <= c < |r.output| && 0 <= k < |r.output[c]| && k != i ==>
              r.output[c][k] == p.output[c][k]
    ensures playing ==>
              var pos := StartPosition(p.playhead, loopStart, loopEnd, looping);
              forall c :: 0 <= c < Min(|audio|, |p.output|) ==>
                r.output[c][i] == (if InAudio(pos, |audio[0]|) then ReadAt(audio[c], pos) else p.output[c][i])
    ensures forall c :: Min(|audio|, |p.output|) <= c < |p.output| ==> r.output[c][i] == p.output[c][i]
  {
    if !playing then p
    else
      var pos := StartPosition(p.playhead, loopStart, loopEnd, looping);
      var out := if InAudio(pos, |audio[0]|) then CopyChannels(audio, p.output, i, pos) else p.output;
      Playback(pos + 1, out)
  }

  /** All channels of a decoded audio buffer have the same length. */
  predicate SameLength(audio: seq<seq<Sample>>) {
    forall c :: 0 <= c < |audio| ==> |audio[c]| == |audio[0]|
  }

  /** With the intended guard, playback never writes a value that is not in
      the audio: numeric audio and output stay numeric. */
  lemma StepKeepsNumbers(audio: seq<seq<Sample>>, loopStart: int, loopEnd: int, p: Playback,
                         i: nat, playing: bool, looping: bool)
    requires playing ==> 1 <= |audio|
    requires HasSample(p.output, i)
    requires SameLength(audio) && AllNum(audio) && AllNum(p.output)
    ensures AllNum(Step(audio, loopStart, loopEnd, p, i, playing, looping).output)
  {
  }

  /** As written, a playhead equal to the audio length reads one past the
      end, and the output receives `NaN`. */
  lemma AsWrittenReadsPastEnd()
    ensures var audio := [[Num(1.0)]];
            var p := Playback(1, [[Num(0.0)]]);
            AllNum(audio) && AllNum(p.output) &&
            StepAsWritten(audio, 0, 0, p, 0, true, false).output[0][0] == NaN
  {
    var audio := [[Num(1.0)]];
    var p := Playback(1, [[Num(0.0)]]);
    var r := StepAsWritten(audio, 0, 0, p, 0, true, false);
    assert r.output == CopyChannels(audio, p.output, 0, 1);
  }

  /** Number of samples in `[0, n)` whose `playing` value is true. */
  function PlayingCount(playing: seq<real>, n: nat): (k: nat)
    ensures k <= n
  {
    if n == 0 then 0 else PlayingCount(playing, n - 1) + (if ParamAt(playing, n - 1) then 1 else 0)
  }

  predicate AnyPlaying(playing: seq<real>, n: nat) {
    exists k :: 0 <= k < n && ParamAt(playing, k)
  }

  predicate NeverLooping(loop: seq<real>, n: nat) {
    forall k :: 0 <= k < n ==> !ParamAt(loop, k)
  }

  predicate SameShape(a: seq<seq<Sample>>, b: seq<seq<Sample>>) {
    |a| == |b| && forall c :: 0 <= c < |a| ==> |a[c]| == |b[c]|
  }

  /** What the playback loop keeps after the first `i` samples of a block of
      `bufferSize` samples: same shape, samples from `i` on and samples that
      were not playing untouched, the playhead advanced once per playing
      sample when not looping, nothing changed while nothing has played, and
      numeric audio leaving the output numeric. */
  predicate BlockInvariant(st: Recorder, audio: seq<seq<Sample>>, output: seq<seq<Sample>>,
                           playing: seq<real>, loop: seq<real>, bufferSize: nat, p: Playback, i: nat) {
    && i <= bufferSize
    && SameShape(p.output, output)
    && (forall c, k :: 0 <= c < |output| && i <= k < |output[c]| ==> p.output[c][k] == output[c][k])
    && (forall c, k :: 0 <= c < |output| && 0 <= k < i && k < |output[c]| && !ParamAt(playing, k) ==>
          p.output[c][k] == output[c][k])
    && (NeverLooping(loop, bufferSize) ==> p.playhead == st.playhead + PlayingCount(playing, i))
    && (!AnyPlaying(playing, i) ==> p == Playback(st.playhead, output))
    && (st.audio.Some? && SameLength(audio) && AllNum(audio) && AllNum(output) ==> AllNum(p.output))
  }

  /** One `Step` at sample `i` keeps the playback loop's invariant. */
  lemma StepKeepsBlockInvariant(st: Recorder, audio: seq<seq<Sample>>, output: seq<seq<Sample>>,
                                playing: seq<real>, loop: seq<real>, bufferSize: nat, p: Playback, i: nat)
    requires 1 <= |output| && bufferSize == |output[0]|
    requires forall c :: 0 <= c < |output| ==> |output[c]| == bufferSize
    requires AnyPlaying(playing, bufferSize) ==> st.audio.Some? && 1 <= |st.audio.value|
    requires audio == if st.audio.Some? then st.audio.value else []
    requires i < bufferSize && BlockInvariant(st, audio, output, playing, loop, bufferSize, p, i)
    ensures ParamAt(playing, i) ==> 1 <= |audio|
    ensures HasSample(p.output, i)
    ensures BlockInvariant(st, audio, output, playing, loop, bufferSize,
                           Step(audio, st.loopStart, st.loopEnd, p, i, ParamAt(playing, i), ParamAt(loop, i)), i + 1)
  {
    var isPlaying := ParamAt(playing, i);
    var looping := ParamAt(loop, i);
    if isPlaying {
      assert AnyPlaying(playing, bufferSize);
    }
    if st.audio.Some? && SameLength(audio) && AllNum(audio) && AllNum(output) {
      StepKeepsNumbers(audio, st.loopStart, st.loopEnd, p, i, isPlaying, looping);
    }
    var r := Step(audio, st.loopStart, st.loopEnd, p, i, isPlaying, looping);
    if !AnyPlaying(playing, i + 1) {
      assert !AnyPlaying(playing, i) && !isPlaying;
    }
    if NeverLooping(loop, bufferSize) {
      assert !looping;
    }
  }

  /** Every channel of `output` has at least `n` samples. */
  predicate HasSamples(output: seq<seq<Sample>>, n: nat) {
    forall c :: 0 <= c < |output| ==> n <= |output[c]|
  }

  lemma AnyPlayingGrows(playing: seq<real>, m: nat, n: nat)
    requires m <= n
    ensures AnyPlaying(playing, m) ==> AnyPlaying(playing, n)
  {
  }

  /** The playback loop as a reference definition: `Step` for samples
      `0 .. n-1` in order, starting from `p0`. */
  function Render(audio: seq<seq<Sample>>, loopStart: int, loopEnd: int, p0: Playback,
                  playing: seq<real>, loop: seq<real>, n: nat): (r: Playback)
    requires HasSamples(p0.output, n)
    requires AnyPlaying(playing, n) ==> 1 <= |audio|
    ensures SameShape(r.output, p0.output)
    decreases n
  {
    if n == 0 then p0
    else
      AnyPlayingGrows(playing, n - 1, n);
      assert ParamAt(playing, n - 1) ==> AnyPlaying(playing, n);
      var p := Render(audio, loopStart, loopEnd, p0, playing, loop, n - 1);
      Step(audio, loopStart, loopEnd, p, n - 1, ParamAt(playing, n - 1), ParamAt(loop, n - 1))
  }

  /** Samples from `n` on are not touched by the first `n` steps. */
  lemma {:induction false} RenderAhead(audio: seq<seq<Sample>>, loopStart: int, loopEnd: int, p0: Playback,
                                       playing: seq<real>, loop: seq<real>, n: nat, k: nat, c: nat)
    requires HasSamples(p0.output, n) && (AnyPlaying(playing, n) ==> 1 <= |audio|)
    requires c < |p0.output| && n <= k < |p0.output[c]|
    ensures Render(audio, loopStart, loopEnd, p0, playing, loop, n).output[c][k] == p0.output[c][k]
    decreases n
  {
    if n > 0 {
      AnyPlayingGrows(playing, n - 1, n);
      RenderAhead(audio, loopStart, loopEnd, p0, playing, loop, n - 1, k, c);
    }
  }

  /** What playback leaves in sample `k` of channel `c`: the audio at the
      position that sample reads from, when it is playing, the channel has
      audio and the position lies inside the audio; the original sample
      otherwise. The position is the playhead after the first `k` steps,
      moved to the loop start when looping on the loop end. */
  lemma {:induction false} RenderSample(audio: seq<seq<Sample>>, loopStart: int, loopEnd: int, p0: Playback,
                                        playing: seq<real>, loop: seq<real>, n: nat, k: nat, c: nat)
    requires HasSamples(p0.output, n) && (AnyPlaying(playing, n) ==> 1 <= |audio|)
    requires k < n && c < |p0.output|
    ensures AnyPlaying(playing, k) ==> AnyPlaying(playing, n)
    ensures var before := Render(audio, loopStart, loopEnd, p0, playing, loop, k);
            var pos := StartPosition(before.playhead, loopStart, loopEnd, ParamAt(loop, k));
            Render(audio, loopStart, loopEnd, p0, playing, loop, n).output[c][k]
              == if ParamAt(playing, k) && c < |audio| && InAudio(pos, |audio[0]|) then ReadAt(audio[c], pos)
                 else p0.output[c][k]
    decreases n
  {
    AnyPlayingGrows(playing, k, n);
    AnyPlayingGrows(playing, n - 1, n);
    if ParamAt(playing, n - 1) {
      assert AnyPlaying(playing, n);
    }
    if k == n - 1 {
      RenderAhead(audio, loopStart, loopEnd, p0, playing, loop, n - 1, k, c);
    } else {
      RenderSample(audio, loopStart, loopEnd, p0, playing, loop, n - 1, k, c);
    }
  }

  /** The audio a recorder plays: its buffer, or nothing. */
  function AudioOf(st: Recorder): seq<seq<Sample>> {
    if st.audio.Some? then st.audio.value else []
  }

  /** The reference result of the playback branch: `Render` over every
      sample of the block, from the recorder's playhead and loop bounds. */
  function RenderBlock(st: Recorder, output: seq<seq<Sample>>, playing: seq<real>, loop: seq<real>): Playback
    requires 1 <= |output| && forall c :: 0 <= c < |output| ==> |output[c]| == |output[0]|
    requires AnyPlaying(playing, |output[0]|) ==> st.audio.Some? && 1 <= |st.audio.value|
  {
    Render(AudioOf(st), st.loopStart, st.loopEnd, Playback(st.playhead, output), playing, loop, |output[0]|)
  }

  /** The playback branch of `process`: runs `Step` for every sample of the
      block, as `RenderBlock` does. Samples that are not playing are left untouched; without looping
      the playhead advances by exactly the number of playing samples; numeric
      audio never puts a non-number into the output. */
  method PlayBlock(st: Recorder, output: seq<seq<Sample>>, playing: seq<real>, loop: seq<real>)
    returns (st': Recorder, out: seq<seq<Sample>>)
    requires 1 <= |output| && forall c :: 0 <= c < |output| ==> |output[c]| == |output[0]|
    requires AnyPlaying(playing, |output[0]|) ==> st.audio.Some? && 1 <= |st.audio.value|
    ensures st' == st.(playhead := st'.playhead)
    ensures Playback(st'.playhead, out) == RenderBlock(st, output, playing, loop)
    ensures SameShape(out, output)
    ensures forall c, k :: 0 <= c < |output| && 0 <= k < |output[0]| && !ParamAt(playing, k) ==>
              out[c][k] == output[c][k]
    ensures NeverLooping(loop, |output[0]|) ==> st'.playhead == st.playhead + PlayingCount(playing, |output[0]|)
    ensures !AnyPlaying(playing, |output[0]|) ==> st' == st && out == output
    ensures st.audio.Some? && SameLength(st.audio.value) && AllNum(st.audio.value) && AllNum(output) ==>
              AllNum(out)
  {
    var bufferSize := |output[0]|;
    var audio := AudioOf(st);
    var p := Playback(st.playhead, output);
    var i := 0;
    while i < bufferSize
      invariant BlockInvariant(st, audio, output, playing, loop, bufferSize, p, i)
      invariant AnyPlaying(playing, i) ==> 1 <= |audio|
      invariant p == Render(audio, st.loopStart, st.loopEnd, Playback(st.playhead, output), playing, loop, i)
    {
      StepKeepsBlockInvariant(st, audio, output, playing, loop, bufferSize, p, i);
      AnyPlayingGrows(playing, i + 1, bufferSize);
      p := Step(audio, st.loopStart, st.loopEnd, p, i, ParamAt(playing, i), ParamAt(loop, i));
      i := i + 1;
    }
    st' := st.(playhead := p.playhead);
    out := p.output;
  }

  // ---------------------------------------------------------------------
  // Recording and the whole block

  /** What one call of `process` leaves behind; `overrun` is true when the
      enqueue was short and the processor logged it. `process` itself always
      returns true. */
  datatype Rendered = Rendered(state: Recorder, output: seq<seq<Sample>>, overrun: bool)

  /** `process`: while recording, interleaves the first input into the
      scratch buffer, enqueues it for the worker and advances the playhead by
      one quantum; otherwise plays the resident audio into the first output.
      The only exception it can raise is the `RangeError` of `interleave`. */
  method Process(st: Recorder, input: seq<seq<Sample>>, output: seq<seq<Sample>>,
                 playing: seq<real>, loop: seq<real>)
    returns (r: Result<Rendered>)
    requires st.recording ==> forall c :: 0 <= c < |input| ==> Interleaving.Quantum <= |input[c]|
    requires st.recording && 0 < |input| ==> st.writer.Some? && st.writer.value.ring.Valid()
    requires !st.recording ==> 1 <= |output| && forall c :: 0 <= c < |output| ==> |output[c]| == |output[0]|
    requires !st.recording && AnyPlaying(playing, |output[0]|) ==> st.audio.Some? && 1 <= |st.audio.value|
    ensures r.Failure? <==> st.recording && 0 < |input| && |input| * Interleaving.Quantum != |st.interleaved|
    ensures r.Failure? ==> r.error == RangeError
    ensures st.recording && |input| == 0 ==> r == Success(Rendered(st, output, false))
    ensures st.recording && r.Success? && 0 < |input| ==>
              var w := r.value.state.writer;
              && r.value.output == output
              && r.value.state == st.(playhead := st.playhead + Interleaving.Quantum,
                                      interleaved := r.value.state.interleaved, writer := w)
              && |r.value.state.interleaved| == |st.interleaved|
              && Interleaving.Interleaved(input, r.value.state.interleaved, Interleaving.Quantum)
              && w.Some? && w.value.ring.Valid()
              && w.value.ring.kind == st.writer.value.ring.kind
              && |w.value.ring.storage| == |st.writer.value.ring.storage|
              && w.value.ring.rd == st.writer.value.ring.rd
              && var n := Min(st.writer.value.ring.AvailableWrite(), |st.interleaved|);
                 && w.value.ring.Contents() == st.writer.value.ring.Contents() + r.value.state.interleaved[..n]
                 && (r.value.overrun <==> n != ScratchLength)
    ensures !st.recording ==>
              var b := RenderBlock(st, output, playing, loop);
              r == Success(Rendered(st.(playhead := b.playhead), b.output, false))
  {
    if st.recording {
      if |input| == 0 {
        return Success(Rendered(st, output, false));
      }
      var frame := Interleaving.Interleave(input, st.interleaved, st.inputChannel);
      if frame.Failure? {
        return Failure(frame.error);
      }
      var w, written := AudioWriters.Enqueue(st.writer.value, frame.value);
      var st' := st.(interleaved := frame.value, writer := Some(w), playhead := st.playhead + Interleaving.Quantum);
      r := Success(Rendered(st', output, written != ScratchLength));
    } else {
      var st', out := PlayBlock(st, output, playing, loop);
      r := Success(Rendered(st', out, false));
    }
  }
}

=== FILE: samples.dfy ===
/** Audio samples as a `Float32Array` slot holds them. */
module Samples {

  /** A sample value; reading past the end of a JavaScript array yields
      `undefined`, which a `Float32Array` store turns into `NaN`. */
  datatype Sample = Num(value: real) | NaN

  /** Index `idx` of `channel` with JavaScript's out-of-range behaviour. */
  function ReadAt(channel: seq<Sample>, idx: int): (s: Sample)
    ensures 0 <= idx < |channel| ==> s == channel[idx]
    ensures !(0 <= idx < |channel|) ==> s == NaN
  {
    if 0 <= idx < |channel| then channel[idx] else NaN
  }

  /** Every sample of every channel is a number. */
  predicate AllNum(chans: seq<seq<Sample>>) {
    forall c, k :: 0 <= c < |chans| && 0 <= k < |chans[c]| ==> chans[c][k].Num?
  }
}
